=== FILE: README.md ===
# TikTok downloader: the batch orchestration, modelled in Dafny

The program is a tkinter window around the yt-dlp engine. The user fills in a
profile URL or pastes video links, picks a quality, and presses start. A
worker thread then downloads the targets one by one and reports progress
through a queue that the window drains every 120 ms. This project models the
logic under the widgets and proves what it promises:

- **`Text`**: the parts of Python string handling the program relies on. These are
  `str.strip()` with the `str.isspace()` character set, `str.splitlines()`
  with its line boundaries and the "\r\n" pair, and the decimal text of an
  integer inside an f-string.
- **`FormatPolicy`**: `_format_selector`. A quality label is mapped to a yt-dlp
  format expression. The expression is a list of fallback tiers, and the
  model holds both the tier structure and its rendering.
- **`Targets`**: how `start` reads the profile field and the URL box. The result
  is the ordered target list the worker iterates over.
- **`Options`**: the form, the archive-path default (`_toggle_archive`,
  `pick_out`) and the engine options (`_build_ydl_opts`).
- **`Events`**: the queue's `(kind, payload)` events and `_poll_queue`, which is a
  left fold of the queue into the log text, the status label and the progress
  bar.
- **`Hook`**: `_progress_hook`. It turns a progress dictionary into a status
  line, and raises the cancellation when it sees the stop flag set.
- **`Runner`**: `_run_download`.
  - The engine is an oracle: for each target it gives the progress
    dictionaries and the outcome of the call.
  - Every read of the stop flag is numbered. A `StopSignal` gives the first
    read at which the flag is seen set.
  - `Run` is the whole sequence of events one worker queues.
- **`Controller`**: the `start` and `stop` buttons and the window's life cycle, as
  a replay of actions. Its lemmas justify reading the stop flag as a
  `StopSignal` during a run: while a worker is alive, nothing clears the flag.

The model follows the code where the program's own description differs. A
cancelled batch ends with the same "เสร็จสิ้น" status as a completed one. No
"cancelled" status exists. The hook raises its cancellation into the engine
from the first progress call after the flag is set, and no later target is
visited (`Runner.CancelEndsBatch`). Whether the item in progress is cut short,
and whether that shows up as an error line, is the engine's business; the
outcome oracle carries it.

## Model

| member | source | states |
|---|---|---|
| FormatPolicy.FormatSelector | tiktok_downloader_gui.py:205-213 | The format string for a label is the rendering of the policy's tiers for the label's quality. An unknown label gets Best's tiers. |
| FormatPolicy.LabelRoundTrip | tiktok_downloader_gui.py:205-213 | Each of the four drop-down labels selects its own quality, and any other text selects Best. |
| FormatPolicy.Policy | tiktok_downloader_gui.py:205-213 | Every quality falls back through at least two tiers. The first merges separate video and audio, and the last is one combined stream. |
| FormatPolicy.CappedQualitiesCapEveryTier | tiktok_downloader_gui.py:207-210 | The 1080p and 720p choices cap the picture height in every tier, so no fallback is taller. Best and MP4 only cap nothing. |
| FormatPolicy.Mp4OnlyTiers | tiktok_downloader_gui.py:211-212 | MP4 only tries exactly three tiers in a fixed order: mp4 video with m4a audio, then combined mp4, then any combined stream. |
| Text.Strip | tiktok_downloader_gui.py:151 | The result has no whitespace at either end. It is empty exactly when the input is all whitespace. |
| Text.StripTrims | tiktok_downloader_gui.py:151 | The result is a slice of the input with only whitespace cut from either side. |
| Text.StripIdempotent | tiktok_downloader_gui.py:152 | Stripping twice gives the same result as stripping once. |
| Text.SplitLinesAgreesWithSegments | tiktok_downloader_gui.py:152 | After blank lines are dropped, splitting Python's way ("\r\n" is one boundary and no line follows a final break) gives the same stripped lines as cutting at every break character. |
| Text.SegmentsStrip | tiktok_downloader_gui.py:152 | Stripping the whole text before splitting it does not change the stripped non-blank lines. |
| Text.IntToStringRoundTrip | tiktok_downloader_gui.py:198-199 | The decimal text of any integer is digits after an optional '-', and it parses back to that integer. |
| Targets.UrlLines | tiktok_downloader_gui.py:152 | The URL lines are the stripped, non-blank runs between line breaks of the box, in order. Each is non-empty, stripped and on one line. |
| Targets.Resolve | tiktok_downloader_gui.py:242-246 | The targets are the stripped profile first, only when it is not blank, then every non-blank URL line in box order, with duplicates kept. |
| Targets.ResolvedTargetsClean | tiktok_downloader_gui.py:151-152 | Every target is non-empty and stripped. |
| Targets.NoTargetsIffAllBlank | tiktok_downloader_gui.py:151-156 | There is nothing to download exactly when both the profile field and the box are all whitespace. |
| Targets.RepeatedLineKept | tiktok_downloader_gui.py:152 | A URL pasted twice on two lines is downloaded twice. |
| Options.JoinPath | tiktok_downloader_gui.py:124 | Joining a folder and a file name gives just the name for "." or an empty folder. Otherwise it is the folder, then exactly one '/', then the name: the folder's own trailing '/' is reused rather than a second one added. |
| Options.JoinPathTrailingSlash | tiktok_downloader_gui.py:124 | A folder typed with a trailing '/' gives the same path as the folder without it. |
| Options.ToggleArchive | tiktok_downloader_gui.py:121-124 | A non-empty archive path is kept. An empty one becomes exactly "downloaded_archive.txt" when the folder is empty or ".", and the folder joined with that name otherwise. |
| Options.ToggleArchiveSettles | tiktok_downloader_gui.py:121-124 | Applying the default twice gives the same path as applying it once, whatever output folder is set in between. |
| Options.PickOut | tiktok_downloader_gui.py:126-130 | A chosen folder becomes the output folder and fills an empty archive path with the archive default for that folder. A cancelled dialog changes nothing. No other field changes. |
| Options.ClickArchiveBox | tiktok_downloader_gui.py:92-93 | A click on the archive box flips it and fills an empty archive path with the default for the current folder. No other field changes. |
| Options.ClickArchiveBoxTwice | tiktok_downloader_gui.py:121-124 | Two clicks leave the box as it was, and the archive path as the first click left it. |
| Options.PickArchive | tiktok_downloader_gui.py:132-138 | A chosen file becomes the archive path. A cancelled dialog changes nothing. No other field changes. |
| Options.PickCookies | tiktok_downloader_gui.py:140-144 | A chosen file becomes the cookies path. A cancelled dialog changes nothing. No other field changes. |
| Options.PickOutTwice | tiktok_downloader_gui.py:126-130 | Starting from an empty archive path, after two folder picks with a folder chosen first, the archive path is the one from the first pick. |
| Options.InitialForm | tiktok_downloader_gui.py:119-124 | The window opens with the archive on, a limit of 0 (no limit) and Best quality, as the variables at lines 45-51 are set, and `_toggle_archive(init=True)` turns the empty archive path into "downloaded_archive.txt". |
| Options.BuildOpts | tiktok_downloader_gui.py:215-236 | The build fails exactly when reading the video limit fails. Otherwise: format is the policy's rendering; retries 5, ignoreerrors on, noplaylist off, 5 fragments, mp4 remux; cookiefile appears iff the stripped cookies path is non-blank and holds it; download_archive appears iff the archive is ticked and holds the stripped path; playlistend appears iff the limit is positive and equals it. |
| Options.FormatIsSelectorOutput | tiktok_downloader_gui.py:219 | The format handed to the engine is the selector's output for the form's quality. |
| Options.CookiesNeverBlank | tiktok_downloader_gui.py:250-253 | The cookies test holds exactly when a cookies file is passed, since a passed path is never blank. The archive test holds exactly when the box is ticked and its path is not blank. `Runner.RunLogText` turns these tests into logged lines. |
| Events.Poll | tiktok_downloader_gui.py:171-186 | Draining appends every log payload plus a newline in queue order. The label shows the last status payload, or keeps its old text. The bar stops iff a stop event was queued. Other kinds are ignored. |
| Events.PollConcat | tiktok_downloader_gui.py:171-186 | Draining a queue in two polls gives the same window as draining it in one. |
| Events.PollEndsAt | tiktok_downloader_gui.py:180-183 | A queue ending in a status and then a stop leaves that status on the label and the bar stopped. |
| Hook.ProgressHook | tiktok_downloader_gui.py:194-203 | A status is queued only for "downloading" (prefix, speed and ETA) and "finished" (the post-process text). The cancellation is raised exactly when the flag is seen set, whatever the status. |
| Hook.EtaSuffixRoundTrip | tiktok_downloader_gui.py:197-199 | The ETA suffix is " ETA ", the integer's text, then "s", and the integer parses back from it. |
| Hook.DownloadingStatusParts | tiktok_downloader_gui.py:196-199 | The downloading status is the prefix, the speed (empty when missing) and the ETA suffix (empty when there is no eta), in that order. |
| Runner.Loop | tiktok_downloader_gui.py:256-263 | Targets are visited in list order with 1-based indices and one engine call each. The k-th check is at read `CheckRead(k)`: the first at the starting read, each next one after one read per hook call of the previous visit. Every visit saw the flag clear at its check. The loop breaks exactly at the first check that sees the flag set, and otherwise reaches the end. |
| Runner.CheckReadStep | tiktok_downloader_gui.py:256-258 | Consecutive checks are one read plus the previous engine call's hook calls apart. |
| Runner.LoopLengthIsFirstSeenCheck | tiktok_downloader_gui.py:256-258 | The number of targets visited is the position of the first check that sees the flag set, or all of them when no check does, for any stop signal. |
| Runner.NeverStoppedVisitsAll | tiktok_downloader_gui.py:256-263 | With the flag never set, every target is visited, whatever the calls' outcomes. |
| Runner.OutcomesDoNotSteer | tiktok_downloader_gui.py:260-263 | How far the loop gets does not depend on which engine calls failed. |
| Runner.SeenDuringVisitEndsBatch | tiktok_downloader_gui.py:257-258 | If the flag is seen set during a visit, that visit is the last, and the loop breaks at the next target if there is one. |
| Runner.CancelEndsBatch | tiktok_downloader_gui.py:202-203 | If a hook call raised the cancellation, no later target is downloaded. |
| Runner.Run | tiktok_downloader_gui.py:238-267 | Every run queues exactly one stop event, as its last event. It is preceded by "เสร็จสิ้น" when the options were built, and is the only event when they were not. |
| Runner.RunHeaders | tiktok_downloader_gui.py:259 | The "[i/n] url" lines are exactly one per downloaded target, in list order, for the first targets up to where the loop stopped. |
| Runner.RunErrors | tiktok_downloader_gui.py:260-263 | There is one "✗ ERROR: message" line per engine call that raised, in order, and no other. |
| Runner.RunPassLines | tiktok_downloader_gui.py:259-263 | Read together, the header and error lines are, target after target up to where the loop stopped, the target's "[i/n] url" line followed directly by its own "✗ ERROR" line when its call raised. |
| Runner.RunLogText | tiktok_downloader_gui.py:238-263 | The whole log of a built run, in order: "Output: " and the folder, "Format: " and the selector's output, "ใช้ cookies: " and the stripped path iff it is not blank, "ใช้ archive: " and the stripped path iff the box is ticked and it is not blank, then each visited target's header followed by its own error line when its call raised. A run whose options fail logs nothing. |
| Runner.RunStatuses | tiktok_downloader_gui.py:194-265 | The statuses of a built run, in order: for each visited target, the statuses its hook calls queued, then "เสร็จสิ้น". A run whose options fail queues none. |
| Runner.RunLeavesWindowDone | tiktok_downloader_gui.py:265-267 | Once a run is drained, the bar is stopped. The label reads "เสร็จสิ้น", or is unchanged when the options could not be built. |
| Controller.Start | tiktok_downloader_gui.py:146-164 | Start does nothing while a worker is alive or when there is nothing to download. Otherwise it clears the flag, starts the bar, sets the label, logs "Start" and launches a worker on the resolved targets and the folder (or "."). |
| Controller.Stop | tiktok_downloader_gui.py:166-169 | Stop sets the flag, logs the request and shows the cancelling label, with or without a worker. The worker, the form, the log text and the running bar are untouched. |
| Controller.Step | tiktok_downloader_gui.py:92-186 | Of all window actions, only start launches a worker and only the poll timer shrinks the queue. The form changes only by typing, the archive box and the three file dialogs, and those change nothing but the form. |
| Controller.FlagWriters | tiktok_downloader_gui.py:158-167 | Only a start with no live worker clears the flag, and only stop sets it. |
| Controller.FlagStaysSetWhileAlive | tiktok_downloader_gui.py:147-167 | While a worker lives, a set flag stays set and the worker stays alive until it exits. |
| Controller.CancelPendingAtExit | tiktok_downloader_gui.py:158-167 | A cancel made while the worker runs is still set when the worker exits, whatever is pressed in between. |
| Controller.StartWhileAliveIsNoOp | tiktok_downloader_gui.py:147-148 | Pressing start while a worker runs changes nothing, not even a pending cancel. |
| Controller.MonotoneFlagIsSignal | tiktok_downloader_gui.py:257-258 | Any flag history that never goes back from set to clear reads exactly like the stop signal that turns on at its first set read. |

## Left out

- The widgets are not modelled: layout, the message box shown when there is nothing to download, the file dialogs themselves (their answer is an input), the theme and `main`. They are presentation.
- Controller.Start: `out_dir.mkdir` can raise (tiktok_downloader_gui.py line 150); `start` then stops before clearing the flag, logging or launching a worker. The model takes the mkdir to succeed.
- Options.JoinPath: pathlib also folds doubled separators and "./" parts inside the folder, so `Path("out//") / "f"` and `Path("./out") / "f"` are both "out/f". The model keeps the folder text as typed and gives "out//f" and "./out/f"; only a single trailing '/' and the folder "." are normalised.
- Path handling: `JoinPath` covers the current folder "." and a trailing "/". The "Output:" line shows the folder text as entered, while the program prints the `Path`, which also drops a trailing separator, "./" parts and doubled separators; that normalisation is not modelled.
- Threads, queue locking and the 120 ms timer are not modelled. They appear only as an interleaving of actions (`Controller.Action`) and as numbered flag reads (`Runner.StopSignal`).
- yt-dlp itself is an oracle: extraction, downloading, retries, fragments, the ffmpeg remux, and how it treats the hook's error under `ignoreerrors`.
- Runner.Run: assumes that opening and closing the `YoutubeDL` context does not raise. If it did, the done status would be missing and the stop event would still come last.
- Options.BuildOpts: the `progress_hooks` entry is a callback, so it has no field in the model. The callback itself is `Hook.ProgressHook`.
- Hook.ProgressHook: a progress dictionary without a "status" key (a `KeyError`) is not modelled. Neither are an `eta` that is not an integer or a `_speed_str` stored as None.
- Reading the video limit is an input: `Form.maxVideos` is None when the spin box text makes the read raise. How Tk converts that text is not modelled.
- The Tk text widget's trailing newline in `urls_box.get("1.0", "end")` is not modelled. The strip removes it.

=== FILE: Controller.dfy ===
/** The window's side of a batch: the start and cancel buttons (`start`,
    `stop`), the periodic drain of the queue, and the worker's lifetime. The
    lemmas here are why the worker may treat the stop flag as a signal that,
    once seen set, stays set. */
module Controller {
  import opened Wrappers
  import Text
  import Targets
  import Options
  import opened Events
  import Runner

  const StartLog: string := "Start"
  const StartingStatus: string := "กำลังเริ่มดาวน์โหลด…"
  const StopLog: string := "ขอหยุดหลังจบไฟล์ปัจจุบัน…"
  const CancellingStatus: string := "กำลังยกเลิกเมื่อจบไฟล์นี้…"

  /** The window's state: the form, the stop flag, whether a worker thread is
      alive, the events queued and not yet drained, and what is shown. */
  datatype Window = Window(form: Options.Form, stopFlag: bool, workerAlive: bool, queue: seq<Event>, ui: Ui)

  /** The window after a button press, and the job handed to a new worker, if
      one was started. */
  datatype Pressed = Pressed(next: Window, job: Option<Runner.Job>)

  /** `start()`. Nothing happens while a worker is alive, nor when there is
      nothing to download (the program then shows a message box); otherwise
      the flag is cleared, the bar started, the label and the log updated, and
      a worker launched on the resolved targets. */
  function Start(w: Window): (r: Pressed)
    ensures w.workerAlive ==> r == Pressed(w, None)
    ensures r.job.Some? <==> !w.workerAlive && !(Text.AllSpace(w.form.profileUrl) && Text.AllSpace(w.form.urlBox))
    ensures r.job.None? ==> r.next == w
    ensures r.job.Some? ==>
      && Runner.JobTargets(r.job.value) == Targets.Resolve(w.form.profileUrl, w.form.urlBox)
      && r.job.value.outDir == Options.FolderOrCurrent(w.form.outDir)
      && r.next == w.(stopFlag := false, workerAlive := true, queue := w.queue + [Log(StartLog)],
                      ui := w.ui.(statusText := StartingStatus, barRunning := true))
  {
    if w.workerAlive then Pressed(w, None)
    else
      var profile := Text.Strip(w.form.profileUrl);
      var lines := Targets.UrlLines(w.form.urlBox);
      Targets.NoTargetsIffAllBlank(w.form.profileUrl, w.form.urlBox);
      if profile == [] && lines == [] then Pressed(w, None)
      else
        var job := Runner.Job(profile, lines, Options.FolderOrCurrent(w.form.outDir));
        var next := w.(stopFlag := false, workerAlive := true, queue := w.queue + [Log(StartLog)],
                       ui := w.ui.(statusText := StartingStatus, barRunning := true));
        Pressed(next, Some(job))
  }

  /** `stop()`: the flag is set and the request logged, whether or not a
      worker is running. */
  function Stop(w: Window): (r: Window)
    ensures r.stopFlag && r.workerAlive == w.workerAlive && r.form == w.form
    ensures r.queue == w.queue + [Log(StopLog)] && r.ui.statusText == CancellingStatus
    ensures r.ui.logText == w.ui.logText && r.ui.barRunning == w.ui.barRunning
  {
    w.(stopFlag := true, queue := w.queue + [Log(StopLog)], ui := w.ui.(statusText := CancellingStatus))
  }

  /** The things that can happen to the window, in the order they happen.
      `EditForm` is the user typing into the entries, the URL box, the spin
      box or the quality box: any form at all. A dialog's `chosen` is empty
      when it was cancelled. */
  datatype Action =
    | PressStart
    | PressStop
    | PickFolder(chosen: string)
    | PickArchive(chosen: string)
    | PickCookies(chosen: string)
    | ClickArchiveBox
    | EditForm(f: Options.Form)
    | Tick
    | WorkerPut(e: Event)
    | WorkerExit
  {
    /** The actions that only edit the form. */
    predicate EditsForm() {
      PickFolder? || PickArchive? || PickCookies? || ClickArchiveBox? || EditForm?
    }
  }

  /** One action applied to the window. Only a start launches a worker, only
      a tick drains the queue, and the form changes only by the actions that
      edit it, which change nothing else. */
  function Step(w: Window, a: Action): (r: Window)
    ensures r.workerAlive && !w.workerAlive ==> a == PressStart
    ensures |r.queue| < |w.queue| ==> a == Tick
    ensures a.EditsForm() ==> r == w.(form := r.form)
    ensures !a.EditsForm() ==> r.form == w.form
  {
    if a.EditsForm() then w.(form := FormAfter(w.form, a))
    else
      match a
      case PressStart => Start(w).next
      case PressStop => Stop(w)
      case Tick => w.(queue := [], ui := Poll(w.ui, w.queue))
      case WorkerPut(e) => w.(queue := w.queue + [e])
      case WorkerExit => w.(workerAlive := false)
  }

  /** The form after an action that edits it. */
  function FormAfter(f: Options.Form, a: Action): Options.Form
    requires a.EditsForm()
  {
    match a
    case PickFolder(chosen) => Options.PickOut(f, chosen)
    case PickArchive(chosen) => Options.PickArchive(f, chosen)
    case PickCookies(chosen) => Options.PickCookies(f, chosen)
    case ClickArchiveBox => Options.ClickArchiveBox(f)
    case EditForm(g) => g
  }

  function Replay(w: Window, acts: seq<Action>): Window
    decreases |acts|
  {
    if acts == [] then w else Replay(Step(w, acts[0]), acts[1..])
  }

  /** Replaying a history in two parts is replaying it whole. */
  lemma {:induction false} ReplayConcat(w: Window, a: seq<Action>, b: seq<Action>)
    ensures Replay(Replay(w, a), b) == Replay(w, a + b)
    decreases |a|
  {
    if a == [] {
      assert a + b == b;
    } else {
      var w1 := Step(w, a[0]);
      assert (a + b)[0] == a[0] && (a + b)[1..] == a[1..] + b;
      assert Replay(w, a + b) == Replay(w1, a[1..] + b);
      assert Replay(w, a) == Replay(w1, a[1..]);
      ReplayConcat(w1, a[1..], b);
    }
  }

  /** Only a start with no worker alive clears the flag, and only a cancel
      sets it. */
  lemma FlagWriters(w: Window, a: Action)
    ensures w.stopFlag && !Step(w, a).stopFlag ==> a == PressStart && !w.workerAlive
    ensures !w.stopFlag && Step(w, a).stopFlag ==> a == PressStop
  {
  }

  /** While the worker lives, the flag never goes back from set to clear, and
      the worker stays alive until it exits. */
  lemma {:induction false} FlagStaysSetWhileAlive(w: Window, acts: seq<Action>)
    requires w.workerAlive
    requires forall k :: 0 <= k < |acts| ==> acts[k] != WorkerExit
    ensures Replay(w, acts).workerAlive
    ensures w.stopFlag ==> Replay(w, acts).stopFlag
    decreases |acts|
  {
    if acts != [] {
      FlagWriters(w, acts[0]);
      assert Step(w, acts[0]).workerAlive;
      FlagStaysSetWhileAlive(Step(w, acts[0]), acts[1..]);
    }
  }

  /** A cancel pending while the worker runs is still pending when the worker
      exits: the batch it asked to end does not forget it, and only the next
      start clears it. */
  lemma CancelPendingAtExit(w: Window, before: seq<Action>)
    requires w.workerAlive && w.stopFlag
    requires forall k :: 0 <= k < |before| ==> before[k] != WorkerExit
    ensures Replay(w, before + [WorkerExit]).stopFlag
    ensures !Replay(w, before + [WorkerExit]).workerAlive
  {
    ReplayConcat(w, before, [WorkerExit]);
    FlagStaysSetWhileAlive(w, before);
    assert [WorkerExit][1..] == [];
  }

  /** The position of the first set flag in a history, if any. */
  function FirstSet(flags: seq<bool>): (r: Option<nat>)
    ensures r.None? <==> forall k :: 0 <= k < |flags| ==> !flags[k]
    ensures r.Some? ==> r.value < |flags| && flags[r.value] && forall k :: 0 <= k < r.value ==> !flags[k]
  {
    if flags == [] then None
    else if flags[0] then Some(0)
    else
      match FirstSet(flags[1..])
      case None => None
      case Some(i) => Some(i + 1)
  }

  /** Every flag history that never goes back from set to clear is read the
      same as some stop signal: the one that turns on at the first set read. */
  lemma MonotoneFlagIsSignal(flags: seq<bool>)
    requires forall i, j :: 0 <= i <= j < |flags| && flags[i] ==> flags[j]
    ensures var s := if FirstSet(flags).None? then Runner.Never else Runner.At(FirstSet(flags).value);
      forall k :: 0 <= k < |flags| ==> (Runner.Observed(s, k) <==> flags[k])
  {
  }

  /** A start with a worker alive changes nothing, not even the flag: a second
      batch cannot be started, and a pending cancel is not forgotten. */
  lemma StartWhileAliveIsNoOp(w: Window)
    requires w.workerAlive
    ensures Step(w, PressStart) == w
  {
  }
}

=== FILE: Events.dfy ===
/** The queue between the worker and the window: `(kind, payload)` events, and
    `_poll_queue`, which drains them into the log text, the status label and
    the progress bar. */
module Events {
  import opened Wrappers

  /** One queue entry. The program puts three kinds: "log", "status", "stop". */
  datatype Event = Event(kind: string, payload: string)

  /** `_log(msg)`. */
  function Log(msg: string): Event {
    Event("log", msg)
  }

  /** `_status(msg)`. */
  function Status(msg: string): Event {
    Event("status", msg)
  }

  /** The last event of every run, put by the worker's `finally`. */
  const StopEvent: Event := Event("stop", "")

  /** What the window shows: the log area, the status label, and whether the
      progress bar is animating. */
  datatype Ui = Ui(logText: string, statusText: string, barRunning: bool)

  /** The effect of one event on the window; an unknown kind has none. */
  function Consume(ui: Ui, e: Event): Ui {
    if e.kind == "log" then ui.(logText := ui.logText + e.payload + "\n")
    else if e.kind == "status" then ui.(statusText := e.payload)
    else if e.kind == "stop" then ui.(barRunning := false)
    else ui
  }

  // ---------------------------------------------------------------------------
  // What a sequence of events amounts to, read from its end
  // ---------------------------------------------------------------------------

  /** The payloads of the log events, in queue order. */
  function LogPayloads(q: seq<Event>): seq<string> {
    if q == [] then []
    else
      var last := q[|q| - 1];
      LogPayloads(q[..|q| - 1]) + (if last.kind == "log" then [last.payload] else [])
  }

  /** Each line followed by a newline, in order. */
  function Terminated(lines: seq<string>): string {
    if lines == [] then "" else Terminated(lines[..|lines| - 1]) + lines[|lines| - 1] + "\n"
  }

  /** The payload of the last status event, if any. */
  function LastStatus(q: seq<Event>): Option<string> {
    if q == [] then None
    else if q[|q| - 1].kind == "status" then Some(q[|q| - 1].payload)
    else LastStatus(q[..|q| - 1])
  }

  /** The payloads of the status events, in queue order. */
  function StatusPayloads(q: seq<Event>): seq<string> {
    if q == [] then []
    else
      var last := q[|q| - 1];
      StatusPayloads(q[..|q| - 1]) + (if last.kind == "status" then [last.payload] else [])
  }

  predicate HasStop(q: seq<Event>) {
    exists k :: 0 <= k < |q| && q[k].kind == "stop"
  }

  lemma LogPayloadsCons(e: Event, q: seq<Event>)
    ensures LogPayloads([e] + q) == (if e.kind == "log" then [e.payload] else []) + LogPayloads(q)
    decreases |q|
  {
    if q != [] {
      assert ([e] + q)[..|[e] + q| - 1] == [e] + q[..|q| - 1];
      LogPayloadsCons(e, q[..|q| - 1]);
    }
  }

  lemma {:induction false} LogPayloadsAppend(a: seq<Event>, b: seq<Event>)
    ensures LogPayloads(a + b) == LogPayloads(a) + LogPayloads(b)
    decreases |b|
  {
    if b == [] {
      assert a + b == a;
    } else {
      assert (a + b)[..|a + b| - 1] == a + b[..|b| - 1];
      assert (a + b)[|a + b| - 1] == b[|b| - 1];
      LogPayloadsAppend(a, b[..|b| - 1]);
    }
  }

  lemma {:induction false} StatusPayloadsAppend(a: seq<Event>, b: seq<Event>)
    ensures StatusPayloads(a + b) == StatusPayloads(a) + StatusPayloads(b)
    decreases |b|
  {
    if b == [] {
      assert a + b == a;
    } else {
      assert (a + b)[..|a + b| - 1] == a + b[..|b| - 1];
      assert (a + b)[|a + b| - 1] == b[|b| - 1];
      StatusPayloadsAppend(a, b[..|b| - 1]);
    }
  }

  /** A single event contributes its payload to the list of its own kind. */
  lemma OnePayload(e: Event)
    ensures LogPayloads([e]) == if e.kind == "log" then [e.payload] else []
    ensures StatusPayloads([e]) == if e.kind == "status" then [e.payload] else []
  {
    assert [e][..0] == [];
  }

  lemma {:induction false} TerminatedCons(line: string, lines: seq<string>)
    ensures Terminated([line] + lines) == line + "\n" + Terminated(lines)
    decreases |lines|
  {
    if lines == [] {
      assert [line][..0] == [];
    } else {
      var n := |lines|;
      assert ([line] + lines)[..n] == [line] + lines[..n - 1];
      TerminatedCons(line, lines[..n - 1]);
    }
  }

  lemma {:induction false} LastStatusCons(e: Event, q: seq<Event>)
    ensures LastStatus([e] + q) ==
      if LastStatus(q).Some? then LastStatus(q)
      else if e.kind == "status" then Some(e.payload) else None
    decreases |q|
  {
    if q == [] {
      assert [e][..0] == [];
    } else {
      assert ([e] + q)[..|q|] == [e] + q[..|q| - 1];
      LastStatusCons(e, q[..|q| - 1]);
    }
  }

  lemma HasStopCons(e: Event, q: seq<Event>)
    ensures HasStop([e] + q) <==> e.kind == "stop" || HasStop(q)
  {
    if e.kind == "stop" {
      assert ([e] + q)[0] == e;
    }
    if HasStop(q) {
      var k :| 0 <= k < |q| && q[k].kind == "stop";
      assert ([e] + q)[k + 1] == q[k];
    }
    if HasStop([e] + q) && e.kind != "stop" {
      var k :| 0 <= k < |[e] + q| && ([e] + q)[k].kind == "stop";
      assert k != 0;
      assert q[k - 1] == ([e] + q)[k];
      assert q[k - 1].kind == "stop";
    }
  }

  /** `_poll_queue`: the window after draining the queue, events taken one by
      one from the front. Every log payload is appended with a newline, in
      queue order; the status label shows the last status payload, or stays as it
      was; the bar stops if a stop event was in the queue. */
  function Poll(ui: Ui, q: seq<Event>): (r: Ui)
    ensures r.logText == ui.logText + Terminated(LogPayloads(q))
    ensures r.statusText == LastStatus(q).GetOr(ui.statusText)
    ensures r.barRunning == (ui.barRunning && !HasStop(q))
    decreases |q|
  {
    if q == [] then ui
    else
      var e := q[0];
      var rest := q[1..];
      assert q == [e] + rest;
      LogPayloadsCons(e, rest);
      LastStatusCons(e, rest);
      HasStopCons(e, rest);
      if e.kind == "log" then
        TerminatedCons(e.payload, LogPayloads(rest));
        Poll(Consume(ui, e), rest)
      else
        assert LogPayloads(q) == LogPayloads(rest);
        Poll(Consume(ui, e), rest)
  }

  /** Draining in two polls is the same as draining everything in one: the
      120 ms timer may cut the queue anywhere. */
  lemma {:induction false} PollConcat(ui: Ui, a: seq<Event>, b: seq<Event>)
    ensures Poll(Poll(ui, a), b) == Poll(ui, a + b)
    decreases |a|
  {
    if a == [] {
      assert a + b == b;
    } else {
      assert (a + b)[0] == a[0];
      assert (a + b)[1..] == a[1..] + b;
      PollConcat(Consume(ui, a[0]), a[1..], b);
    }
  }

  /** A queue that ends with a status and then the stop event leaves the
      label at that status and the bar stopped, whatever came before. */
  lemma PollEndsAt(ui: Ui, q: seq<Event>, done: string)
    ensures Poll(ui, q + [Status(done), StopEvent]).statusText == done
    ensures !Poll(ui, q + [Status(done), StopEvent]).barRunning
  {
    var all := q + [Status(done), StopEvent];
    assert all[..|all| - 1] == q + [Status(done)];
    assert (q + [Status(done)])[|q|] == Status(done);
    assert all[|all| - 1] == StopEvent;
    assert LastStatus(all) == Some(done);
    assert HasStop(all);
  }
}

=== FILE: FormatPolicy.dfy ===
/** The quality-to-format policy (`_format_selector`): a quality label chosen in
    the window is turned into a yt-dlp format expression, a list of fallback
    tiers separated by "/" that the engine tries from left to right. */
module FormatPolicy {
  import Text

  /** The four labels of the quality drop-down. */
  datatype Quality = Best | Max1080p | Max720p | Mp4Only

  /** The label shown in the drop-down for each quality. */
  function Label(q: Quality): string {
    match q
    case Best => "Best (auto)"
    case Max1080p => "Max 1080p"
    case Max720p => "Max 720p"
    case Mp4Only => "MP4 only"
  }

  /** The quality a label selects; a label the policy does not know means Best. */
  function QualityOf(choice: string): Quality {
    if choice == "Max 1080p" then Max1080p
    else if choice == "Max 720p" then Max720p
    else if choice == "MP4 only" then Mp4Only
    else Best
  }

  /** Every label of the drop-down selects its own quality, and every other
      label selects Best. */
  lemma LabelRoundTrip(q: Quality, choice: string)
    ensures QualityOf(Label(q)) == q
    ensures (forall p: Quality :: choice != Label(p)) ==> QualityOf(choice) == Best
  {
    if forall p: Quality :: choice != Label(p) {
      assert choice != Label(Max1080p) && choice != Label(Max720p) && choice != Label(Mp4Only);
    }
  }

  // ---------------------------------------------------------------------------
  // The structure of a format expression
  // ---------------------------------------------------------------------------

  /** A stream filter: `[height<=h]` or `[ext=e]`. */
  datatype Filter = HeightAtMost(h: nat) | ExtIs(ext: string)

  /** A stream selector such as `bv*` or `bestaudio`, with its filters. */
  datatype Stream = Stream(name: string, filters: seq<Filter>)

  /** One fallback tier: a video stream merged with an audio stream, or one
      stream that already carries both. */
  datatype Tier = Merged(video: Stream, audio: Stream) | Combined(stream: Stream)

  /** The tiers each quality asks for, in the order the engine tries them. */
  function Policy(q: Quality): (tiers: seq<Tier>)
    ensures |tiers| >= 2 && tiers[0].Merged? && tiers[|tiers| - 1].Combined?
  {
    match q
    case Best =>
      [Merged(Stream("bestvideo*", []), Stream("bestaudio", [])), Combined(Stream("best", []))]
    case Max1080p => HeightCapped(1080)
    case Max720p => HeightCapped(720)
    case Mp4Only =>
      [ Merged(Stream("bestvideo", [ExtIs("mp4")]), Stream("bestaudio", [ExtIs("m4a")]))
      , Combined(Stream("best", [ExtIs("mp4")]))
      , Combined(Stream("best", []))
      ]
  }

  /** Best video no taller than `h` with best audio, else best combined no
      taller than `h`. */
  function HeightCapped(h: nat): seq<Tier> {
    [ Merged(Stream("bv*", [HeightAtMost(h)]), Stream("ba", []))
    , Combined(Stream("b", [HeightAtMost(h)]))
    ]
  }

  /** The stream of a tier that carries the picture. */
  function VideoOf(t: Tier): Stream {
    match t
    case Merged(v, _) => v
    case Combined(s) => s
  }

  function RenderFilter(f: Filter): string {
    match f
    case HeightAtMost(h) => "[height<=" + Text.NatToString(h) + "]"
    case ExtIs(e) => "[ext=" + e + "]"
  }

  function RenderFilters(fs: seq<Filter>): string {
    if fs == [] then "" else RenderFilter(fs[0]) + RenderFilters(fs[1..])
  }

  function RenderStream(s: Stream): string {
    s.name + RenderFilters(s.filters)
  }

  function RenderTier(t: Tier): string {
    match t
    case Merged(v, a) => RenderStream(v) + "+" + RenderStream(a)
    case Combined(s) => RenderStream(s)
  }

  /** The yt-dlp spelling of a list of tiers: the tiers joined by "/". */
  function Render(tiers: seq<Tier>): string {
    if tiers == [] then ""
    else if |tiers| == 1 then RenderTier(tiers[0])
    else RenderTier(tiers[0]) + "/" + Render(tiers[1..])
  }

  lemma HeightLiterals()
    ensures Text.NatToString(1080) == "1080"
    ensures Text.NatToString(720) == "720"
  {
    assert Text.NatToString(10) == "10";
    assert Text.NatToString(108) == "108";
    assert Text.NatToString(72) == "72";
  }

  lemma RenderSingleFilter(f: Filter)
    ensures RenderFilters([f]) == RenderFilter(f)
  {
    assert [f][1..] == [];
  }

  lemma RenderTwo(a: Tier, b: Tier)
    ensures Render([a, b]) == RenderTier(a) + "/" + RenderTier(b)
  {
    assert [a, b][1..] == [b];
  }

  lemma RenderThree(a: Tier, b: Tier, c: Tier)
    ensures Render([a, b, c]) == RenderTier(a) + "/" + RenderTier(b) + "/" + RenderTier(c)
  {
    assert [a, b, c][0] == a && [a, b, c][1..] == [b, c];
    RenderTwo(b, c);
  }

  lemma RenderBest()
    ensures Render(Policy(Best)) == "bestvideo*+bestaudio/best"
  {
    var t := Policy(Best);
    RenderTwo(t[0], t[1]);
    assert RenderTier(t[0]) == "bestvideo*+bestaudio";
  }

  lemma RenderCappedTiers(h: nat, digits: string)
    requires Text.NatToString(h) == digits
    ensures RenderTier(HeightCapped(h)[0]) == "bv*[height<=" + digits + "]" + "+" + "ba"
    ensures RenderTier(HeightCapped(h)[1]) == "b[height<=" + digits + "]"
  {
    RenderSingleFilter(HeightAtMost(h));
  }

  lemma RenderCapped(h: nat, digits: string)
    requires Text.NatToString(h) == digits
    ensures Render(HeightCapped(h))
      == "bv*[height<=" + digits + "]" + "+" + "ba" + "/" + "b[height<=" + digits + "]"
  {
    var t := HeightCapped(h);
    RenderTwo(t[0], t[1]);
    RenderCappedTiers(h, digits);
  }

  lemma Capped1080Literal()
    ensures "bv*[height<=" + "1080" + "]" + "+" + "ba" + "/" + "b[height<=" + "1080" + "]"
      == "bv*[height<=1080]+ba/b[height<=1080]"
  {
  }

  lemma Capped720Literal()
    ensures "bv*[height<=" + "720" + "]" + "+" + "ba" + "/" + "b[height<=" + "720" + "]"
      == "bv*[height<=720]+ba/b[height<=720]"
  {
  }

  lemma RenderMp4Tiers()
    ensures RenderTier(Policy(Mp4Only)[0]) == "bestvideo[ext=mp4]+bestaudio[ext=m4a]"
    ensures RenderTier(Policy(Mp4Only)[1]) == "best[ext=mp4]"
    ensures RenderTier(Policy(Mp4Only)[2]) == "best"
  {
    RenderMp4First();
    RenderSingleFilter(ExtIs("mp4"));
  }

  lemma RenderMp4First()
    ensures RenderTier(Policy(Mp4Only)[0]) == "bestvideo[ext=mp4]+bestaudio[ext=m4a]"
  {
    RenderSingleFilter(ExtIs("mp4"));
    RenderSingleFilter(ExtIs("m4a"));
  }

  lemma RenderMp4()
    ensures Render(Policy(Mp4Only)) == "bestvideo[ext=mp4]+bestaudio[ext=m4a]/best[ext=mp4]/best"
  {
    var t := Policy(Mp4Only);
    RenderThree(t[0], t[1], t[2]);
    RenderMp4Tiers();
  }

  /** `_format_selector`: the format expression for a quality label. The
      literal strings are the program's; the contract says they spell out the
      tiers of the policy, in the policy's order. */
  function FormatSelector(choice: string): (r: string)
    ensures r == Render(Policy(QualityOf(choice)))
  {
    HeightLiterals();
    RenderBest();
    RenderCapped(1080, "1080");
    RenderCapped(720, "720");
    Capped1080Literal();
    Capped720Literal();
    RenderMp4();
    if choice == "Max 1080p" then "bv*[height<=1080]+ba/b[height<=1080]"
    else if choice == "Max 720p" then "bv*[height<=720]+ba/b[height<=720]"
    else if choice == "MP4 only" then "bestvideo[ext=mp4]+bestaudio[ext=m4a]/best[ext=mp4]/best"
    else "bestvideo*+bestaudio/best"
  }

  /** The height-capped qualities cap the picture of every tier, so no tier can
      fall back to a taller video; the other qualities cap nothing. */
  lemma {:induction false} CappedQualitiesCapEveryTier(q: Quality)
    ensures q == Max1080p ==>
      forall k :: 0 <= k < |Policy(q)| ==> HeightAtMost(1080) in VideoOf(Policy(q)[k]).filters
    ensures q == Max720p ==>
      forall k :: 0 <= k < |Policy(q)| ==> HeightAtMost(720) in VideoOf(Policy(q)[k]).filters
    ensures q in {Best, Mp4Only} ==>
      forall k, h :: 0 <= k < |Policy(q)| ==> HeightAtMost(h) !in VideoOf(Policy(q)[k]).filters
  {
    if q == Max1080p || q == Max720p {
      var h := if q == Max1080p then 1080 else 720;
      assert Policy(q) == HeightCapped(h);
      assert VideoOf(HeightCapped(h)[0]).filters == [HeightAtMost(h)];
      assert VideoOf(HeightCapped(h)[1]).filters == [HeightAtMost(h)];
    }
  }

  /** MP4 only falls back through exactly three tiers, in this order: mp4
      video with m4a audio, then combined mp4, then any combined stream. */
  lemma Mp4OnlyTiers()
    ensures |Policy(Mp4Only)| == 3
    ensures FormatSelector(Label(Mp4Only))
      == RenderTier(Policy(Mp4Only)[0]) + "/" + RenderTier(Policy(Mp4Only)[1]) + "/" + RenderTier(Policy(Mp4Only)[2])
    ensures RenderTier(Policy(Mp4Only)[0]) == "bestvideo[ext=mp4]+bestaudio[ext=m4a]"
    ensures RenderTier(Policy(Mp4Only)[1]) == "best[ext=mp4]"
    ensures RenderTier(Policy(Mp4Only)[2]) == "best"
  {
    var t := Policy(Mp4Only);
    RenderThree(t[0], t[1], t[2]);
    RenderMp4Tiers();
  }
}

=== FILE: Hook.dfy ===
/** `_progress_hook`: what the worker reports for each progress dictionary the
    engine hands it, and the cancellation it raises into the engine. */
module Hook {
  import opened Wrappers
  import Text

  /** The parts of a progress dictionary the hook reads: its status, the
      `_speed_str` entry if present, and the `eta` entry if present and not
      None. */
  datatype HookDict = HookDict(status: string, speed: Option<string>, eta: Option<int>)

  /** What one call of the hook does: the status text it queues, if any, and
      the message of the error it raises, if any. */
  datatype HookReply = HookReply(status: Option<string>, raised: Option<string>)

  const DownloadingPrefix: string := "กำลังดาวน์โหลด… "
  const PostProcessStatus: string := "กำลัง post-process/บันทึกไฟล์…"
  const CancelMessage: string := "ผู้ใช้ยกเลิก (stop at end of current item)"

  /** The ` ETA {eta}s` part of the downloading status, empty without an eta. */
  function EtaSuffix(eta: Option<int>): (s: string)
    ensures eta.None? <==> s == []
  {
    match eta
    case None => ""
    case Some(e) => " ETA " + Text.IntToString(e) + "s"
  }

  /** The status queued while a file downloads: the prefix, the speed (empty
      when missing) and the ETA suffix. */
  function DownloadingStatus(d: HookDict): (s: string)
    ensures |s| >= |DownloadingPrefix| && s[..|DownloadingPrefix|] == DownloadingPrefix
    ensures d.eta.None? ==> s == DownloadingPrefix + d.speed.GetOr("")
  {
    DownloadingPrefix + d.speed.GetOr("") + EtaSuffix(d.eta)
  }

  /** `_progress_hook(d)` with the stop flag as read at this call. A status
      is queued only for "downloading" and "finished"; the cancellation is
      raised exactly when the flag is set, after the status, whatever the
      status is. */
  function ProgressHook(d: HookDict, stopFlag: bool): (r: HookReply)
    ensures r.raised.Some? <==> stopFlag
    ensures r.raised.Some? ==> r.raised.value == CancelMessage
    ensures r.status.Some? <==> d.status == "downloading" || d.status == "finished"
    ensures d.status == "finished" ==> r.status == Some(PostProcessStatus)
    ensures d.status == "downloading" ==> r.status == Some(DownloadingStatus(d))
  {
    var status :=
      if d.status == "downloading" then Some(DownloadingStatus(d))
      else if d.status == "finished" then Some(PostProcessStatus)
      else None;
    HookReply(status, if stopFlag then Some(CancelMessage) else None)
  }

  /** The ETA can be read back from the suffix: it sits between " ETA " and the
      final "s", written so that Text.ParseInt recovers it. */
  lemma EtaSuffixRoundTrip(e: int)
    ensures var s := EtaSuffix(Some(e));
      |s| >= 7 && s[..5] == " ETA " && s[|s| - 1] == 's' && Text.ParseInt(s[5..|s| - 1]) == e
  {
    var digits := Text.IntToString(e);
    var s := EtaSuffix(Some(e));
    assert s == " ETA " + digits + "s";
    assert s[5..|s| - 1] == digits;
    Text.IntToStringRoundTrip(e);
  }

  /** The downloading status carries the speed right after the prefix, and then
      the ETA suffix and nothing else. */
  lemma DownloadingStatusParts(d: HookDict)
    ensures var s := DownloadingStatus(d); var n := |DownloadingPrefix|; var sp := d.speed.GetOr("");
      |s| == n + |sp| + |EtaSuffix(d.eta)| && s[n..n + |sp|] == sp && s[n + |sp|..] == EtaSuffix(d.eta)
  {
    var sp := d.speed.GetOr("");
    var s := DownloadingStatus(d);
    assert s == DownloadingPrefix + sp + EtaSuffix(d.eta);
  }
}

=== FILE: Options.dfy ===
/** The window's form as the worker reads it, the archive-path default
    (`_toggle_archive`, `pick_out`) and the engine options built from the form
    (`_build_ydl_opts`). */
module Options {
  import opened Wrappers
  import Text
  import FormatPolicy

  /** What the widgets hold. `maxVideos` is None when the spin box's text is
      not a number, so that reading it raises. */
  datatype Form = Form(
    profileUrl: string,
    urlBox: string,
    outDir: string,
    maxVideos: Option<int>,
    quality: string,
    useArchive: bool,
    archivePath: string,
    cookiesPath: string)

  const ArchiveFileName: string := "downloaded_archive.txt"

  /** The output template, relative to the output folder: one folder per
      uploader, the file named by date, title (at most 80 bytes) and id. */
  const OutputTemplate: string := "%(uploader)s/%(upload_date)s_%(title).80B_%(id)s.%(ext)s"

  /** `str(Path(dir) / name)` for a relative `name` without "." parts: the
      current folder "." disappears, and no separator is doubled. */
  function JoinPath(dir: string, name: string): (p: string)
    requires name != []
    ensures |p| >= |name| && p[|p| - |name|..] == name
    ensures dir == "." || dir == [] ==> p == name
    ensures dir != "." && dir != [] ==> |p| >= |dir| + |name| && p[..|dir|] == dir
    // Exactly one '/' stands between the folder and the name: the folder's own
    // trailing one, or one added.
    ensures dir != "." && dir != [] ==>
      && p[|p| - |name| - 1] == '/'
      && |p| <= |dir| + 1 + |name|
      && (|p| == |dir| + |name| <==> dir[|dir| - 1] == '/')
  {
    if dir == "." || dir == [] then name
    else if dir[|dir| - 1] == '/' then dir + name
    else dir + "/" + name
  }

  /** A folder typed with its trailing '/' names the same path as without it. */
  lemma JoinPathTrailingSlash(dir: string, name: string)
    requires name != [] && dir != [] && dir != "." && dir[|dir| - 1] != '/'
    ensures JoinPath(dir + "/", name) == JoinPath(dir, name)
  {
  }

  /** `self.out_dir.get() or "."`: an empty folder field means the current folder. */
  function FolderOrCurrent(outDir: string): (d: string)
    ensures d != []
    ensures outDir != [] ==> d == outDir
  {
    if outDir == [] then "." else outDir
  }

  /** `_toggle_archive`: the archive path after the check box is clicked, the
      window opens or an output folder is picked. Only an empty path is
      replaced, by the archive file inside the output folder. */
  function ToggleArchive(archivePath: string, outDir: string): (r: string)
    ensures r != []
    ensures archivePath != [] ==> r == archivePath
    ensures archivePath == [] ==>
      |r| >= |ArchiveFileName| && r[|r| - |ArchiveFileName|..] == ArchiveFileName &&
      (outDir != [] && outDir != "." ==> |r| >= |outDir| && r[..|outDir|] == outDir)
    ensures archivePath == [] && (outDir == [] || outDir == ".") ==> r == ArchiveFileName
    ensures archivePath == [] && outDir != [] && outDir != "." ==> r == JoinPath(outDir, ArchiveFileName)
  {
    if archivePath != [] then archivePath
    else JoinPath(FolderOrCurrent(outDir), ArchiveFileName)
  }

  /** Once a path is filled in, no later toggle changes it, whatever the output
      folder is then: the default is applied at most once. */
  lemma ToggleArchiveSettles(archivePath: string, outDir: string, laterOutDir: string)
    ensures ToggleArchive(ToggleArchive(archivePath, outDir), laterOutDir) == ToggleArchive(archivePath, outDir)
  {
  }

  /** `pick_out`: a chosen folder becomes the output folder and fills in the
      archive path if it is empty; a cancelled dialog (empty answer) changes
      nothing. */
  function PickOut(f: Form, chosen: string): (g: Form)
    ensures chosen == [] ==> g == f
    ensures chosen != [] ==> g.outDir == chosen
    ensures f.archivePath != [] ==> g.archivePath == f.archivePath
    ensures chosen != [] && f.archivePath == [] ==> g.archivePath == ToggleArchive([], chosen)
    ensures g.archivePath != []  || chosen == []
    ensures g.(outDir := f.outDir, archivePath := f.archivePath) == f
  {
    if chosen != [] then
      var f1 := f.(outDir := chosen);
      f1.(archivePath := ToggleArchive(f1.archivePath, f1.outDir))
    else f
  }

  /** A click on the archive check box: Tk flips the box's variable, then
      `_toggle_archive` fills an empty archive path. */
  function ClickArchiveBox(f: Form): (g: Form)
    ensures g.useArchive == !f.useArchive
    ensures g.archivePath == ToggleArchive(f.archivePath, f.outDir)
    ensures g.(useArchive := f.useArchive, archivePath := f.archivePath) == f
  {
    f.(useArchive := !f.useArchive, archivePath := ToggleArchive(f.archivePath, f.outDir))
  }

  /** Two clicks leave the box as it was and the path as the first click set
      it. */
  lemma ClickArchiveBoxTwice(f: Form)
    ensures ClickArchiveBox(ClickArchiveBox(f)).useArchive == f.useArchive
    ensures ClickArchiveBox(ClickArchiveBox(f)).archivePath == ClickArchiveBox(f).archivePath
  {
    ToggleArchiveSettles(f.archivePath, f.outDir, f.outDir);
  }

  /** `pick_archive`: a chosen file becomes the archive path; a cancelled
      dialog changes nothing. */
  function PickArchive(f: Form, chosen: string): (g: Form)
    ensures chosen == [] ==> g == f
    ensures chosen != [] ==> g.archivePath == chosen
    ensures g.(archivePath := f.archivePath) == f
  {
    if chosen != [] then f.(archivePath := chosen) else f
  }

  /** `pick_cookies`: a chosen file becomes the cookies path; a cancelled
      dialog changes nothing. */
  function PickCookies(f: Form, chosen: string): (g: Form)
    ensures chosen == [] ==> g == f
    ensures chosen != [] ==> g.cookiesPath == chosen
    ensures g.(cookiesPath := f.cookiesPath) == f
  {
    if chosen != [] then f.(cookiesPath := chosen) else f
  }

  /** Picking folders one after another keeps the archive path chosen by the
      first pick that found it empty. */
  lemma PickOutTwice(f: Form, first: string, second: string)
    requires first != [] && f.archivePath == []
    ensures PickOut(PickOut(f, first), second).archivePath == JoinPath(first, ArchiveFileName)
  {
  }

  /** The form when the window opens: every field empty, best quality, the
      archive on, and the archive path defaulted by `_toggle_archive(init=True)`. */
  function InitialForm(): (f: Form)
    ensures f.archivePath == ArchiveFileName
    ensures f.useArchive && f.maxVideos == Some(0) && FormatPolicy.QualityOf(f.quality) == FormatPolicy.Best
  {
    var blank := Form("", "", "", Some(0), "Best (auto)", true, "", "");
    blank.(archivePath := ToggleArchive(blank.archivePath, blank.outDir))
  }

  // ---------------------------------------------------------------------------
  // The option dictionary
  // ---------------------------------------------------------------------------

  /** A post-processor entry of the option dictionary. */
  datatype Postprocessor = Postprocessor(key: string, preferedformat: string)

  /** The option dictionary handed to the engine. The keys every dictionary
      has are fields; an optional key is an Option, None when the key is
      absent. The progress hook, a callback in the program, is modelled apart
      and has no field. */
  datatype Opts = Opts(
    outtmpl: string,
    format: string,
    noplaylist: bool,
    ignoreerrors: bool,
    retries: int,
    concurrentFragmentDownloads: int,
    postprocessors: seq<Postprocessor>,
    cookiefile: Option<string>,
    downloadArchive: Option<string>,
    playlistend: Option<int>)

  /** `_build_ydl_opts(out_dir)`: None when reading the maximum number of videos
      raises; otherwise the dictionary, whose optional keys each appear under
      exactly one condition. `int(x or 0)` of an integer is the integer. */
  function BuildOpts(outDir: string, f: Form): (r: Option<Opts>)
    ensures r.None? <==> f.maxVideos.None?
    ensures r.Some? ==>
      && r.value.format == FormatPolicy.Render(FormatPolicy.Policy(FormatPolicy.QualityOf(f.quality)))
      && r.value.outtmpl == JoinPath(outDir, OutputTemplate)
      && r.value.retries == 5
      && r.value.ignoreerrors
      && !r.value.noplaylist
      && r.value.concurrentFragmentDownloads == 5
      && r.value.postprocessors == [Postprocessor("FFmpegVideoRemuxer", "mp4")]
    ensures r.Some? ==>
      && (r.value.cookiefile.Some? <==> !Text.AllSpace(f.cookiesPath))
      && (r.value.cookiefile.Some? ==> r.value.cookiefile.value == Text.Strip(f.cookiesPath))
    ensures r.Some? ==>
      && (r.value.downloadArchive.Some? <==> f.useArchive)
      && (r.value.downloadArchive.Some? ==> r.value.downloadArchive.value == Text.Strip(f.archivePath))
    ensures r.Some? ==>
      && (r.value.playlistend.Some? <==> f.maxVideos.value > 0)
      && (r.value.playlistend.Some? ==> r.value.playlistend.value == f.maxVideos.value)
  {
    match f.maxVideos
    case None => None
    case Some(mv) =>
      var cookies := Text.Strip(f.cookiesPath);
      Some(Opts(
        outtmpl := JoinPath(outDir, OutputTemplate),
        format := FormatPolicy.FormatSelector(f.quality),
        noplaylist := false,
        ignoreerrors := true,
        retries := 5,
        concurrentFragmentDownloads := 5,
        postprocessors := [Postprocessor("FFmpegVideoRemuxer", "mp4")],
        cookiefile := if cookies != [] then Some(cookies) else None,
        downloadArchive := if f.useArchive then Some(Text.Strip(f.archivePath)) else None,
        playlistend := if mv > 0 then Some(mv) else None))
  }

  /** `bool(opts.get(key))` for a string option: present and not empty. */
  function Truthy(v: Option<string>): (b: bool)
    ensures b <==> v.Some? && v.value != []
  {
    v.Some? && v.value != []
  }

  /** The format handed to the engine is the selector's for the form's quality. */
  lemma FormatIsSelectorOutput(outDir: string, f: Form)
    requires f.maxVideos.Some?
    ensures BuildOpts(outDir, f).value.format == FormatPolicy.FormatSelector(f.quality)
  {
  }

  /** A cookies file passed to the engine is always announced in the log: it is
      never blank. An archive path, in contrast, is passed even when blank. */
  lemma CookiesNeverBlank(outDir: string, f: Form)
    requires f.maxVideos.Some?
    ensures Truthy(BuildOpts(outDir, f).value.cookiefile) <==> BuildOpts(outDir, f).value.cookiefile.Some?
    ensures Truthy(BuildOpts(outDir, f).value.downloadArchive) <==> f.useArchive && !Text.AllSpace(f.archivePath)
  {
  }
}

=== FILE: Runner.dfy ===
/** The worker (`_run_download`): build the options, announce them, visit the
    targets in order with one engine call each, checking the stop flag before
    each, and always finish with the stop event. The engine and the stop flag
    are oracles: the engine's progress dictionaries and outcome for each
    target are given, and the flag is given as the first read from which it
    is seen set. */
module Runner {
  import opened Wrappers
  import Text
  import Targets
  import Options
  import opened Events
  import Hook
  import FormatPolicy

  /** How one `ydl.download([url])` call ends: normally, or by raising with a
      message (with `ignoreerrors` the engine raises only on errors it does
      not swallow). */
  datatype Outcome = Ok | Err(message: string)

  /** What the engine does for one target: the progress dictionaries it hands
      to the hook, in order, and how the call ends. */
  datatype EngineCall = EngineCall(hooks: seq<Hook.HookDict>, outcome: Outcome)

  /** The stop flag over one run. Every read of the flag (a check before a
      target, a hook call) has a number, counted from 0 in the order the
      reads happen; `At(n)` says the flag is seen set from read n on. While a
      worker runs only `stop()` writes the flag, and only to set it (see
      Controller), so this is every flag history a run can meet. */
  datatype StopSignal = Never | At(read: nat)

  predicate Observed(s: StopSignal, read: nat) {
    s.At? && read >= s.read
  }

  /** The arguments `start` hands to the worker. */
  datatype Job = Job(profile: string, urlLines: seq<string>, outDir: string)

  function JobTargets(job: Job): seq<string> {
    Targets.TargetList(job.profile, job.urlLines)
  }

  const DoneStatus: string := "เสร็จสิ้น"

  // ---------------------------------------------------------------------------
  // The loop over the targets
  // ---------------------------------------------------------------------------

  /** The hook calls of one engine call; the j-th reads the flag at read
      `firstRead + j`. */
  function Replies(hooks: seq<Hook.HookDict>, stop: StopSignal, firstRead: nat): (r: seq<Hook.HookReply>)
    ensures |r| == |hooks|
  {
    seq(|hooks|, j requires 0 <= j < |hooks| => Hook.ProgressHook(hooks[j], Observed(stop, firstRead + j)))
  }

  /** One pass of the loop body: the 1-based index and URL of the target, the
      read at which the flag was checked before it, and the progress
      dictionaries and outcome of its engine call. */
  datatype Visit = Visit(index: nat, url: string, checkedAt: nat, hooks: seq<Hook.HookDict>, outcome: Outcome)

  /** The hook calls of a pass; they read the flag right after its check. */
  function VisitReplies(v: Visit, stop: StopSignal): (r: seq<Hook.HookReply>)
    ensures |r| == |v.hooks|
  {
    Replies(v.hooks, stop, v.checkedAt + 1)
  }

  /** The loop's passes, the position at which it broke out, if it did, and
      the number of flag reads done so far. */
  datatype LoopRun = LoopRun(visits: seq<Visit>, stoppedAt: Option<nat>, nextRead: nat)

  /** The read at which the loop, started at position `i` after `nextRead`
      reads, checks the flag before target `i + k` if it gets that far: the
      check before each earlier target and one read per hook call of its
      engine call come first. */
  function CheckRead(engine: seq<EngineCall>, i: nat, nextRead: nat, k: nat): (read: nat)
    requires i + k <= |engine|
    ensures read >= nextRead + k
    decreases k
  {
    if k == 0 then nextRead
    else CheckRead(engine, i + 1, nextRead + 1 + |engine[i].hooks|, k - 1)
  }

  /** Consecutive checks are one check and one engine call's hook calls
      apart. */
  lemma {:induction false} CheckReadStep(engine: seq<EngineCall>, i: nat, nextRead: nat, k: nat)
    requires i + k < |engine|
    ensures CheckRead(engine, i, nextRead, k + 1) == CheckRead(engine, i, nextRead, k) + 1 + |engine[i + k].hooks|
    decreases k
  {
    if k > 0 {
      CheckReadStep(engine, i + 1, nextRead + 1 + |engine[i].hooks|, k - 1);
    }
  }

  /** `for idx, url in enumerate(targets, start=1)` from position `i` on, with
      `nextRead` flag reads done before. The targets are visited in order, each
      checked at its own read; each visit saw the flag clear; the loop breaks
      at the first check that sees the flag set, and otherwise runs to the
      end of the list. */
  function Loop(ts: seq<string>, engine: seq<EngineCall>, stop: StopSignal, i: nat, nextRead: nat): (r: LoopRun)
    requires |engine| == |ts| && i <= |ts|
    ensures i + |r.visits| <= |ts|
    ensures forall k :: 0 <= k < |r.visits| ==>
      && r.visits[k].index == i + k + 1
      && r.visits[k].url == ts[i + k]
      && r.visits[k].hooks == engine[i + k].hooks
      && r.visits[k].outcome == engine[i + k].outcome
      && r.visits[k].checkedAt == CheckRead(engine, i, nextRead, k)
      && !Observed(stop, r.visits[k].checkedAt)
    ensures r.nextRead == CheckRead(engine, i, nextRead, |r.visits|)
    ensures r.stoppedAt.Some? <==> i + |r.visits| < |ts|
    ensures r.stoppedAt.Some? ==> r.stoppedAt.value == i + |r.visits| && Observed(stop, r.nextRead)
    ensures r.nextRead >= nextRead
    decreases |ts| - i
  {
    if i == |ts| then LoopRun([], None, nextRead)
    else if Observed(stop, nextRead) then LoopRun([], Some(i), nextRead)
    else
      var call := engine[i];
      var v := Visit(i + 1, ts[i], nextRead, call.hooks, call.outcome);
      var rest := Loop(ts, engine, stop, i + 1, nextRead + 1 + |call.hooks|);
      LoopRun([v] + rest.visits, rest.stoppedAt, rest.nextRead)
  }

  /** With the flag never set, every target is visited: a failing target does
      not end the batch. */
  lemma NeverStoppedVisitsAll(ts: seq<string>, engine: seq<EngineCall>, i: nat, nextRead: nat)
    requires |engine| == |ts| && i <= |ts|
    ensures |Loop(ts, engine, Never, i, nextRead).visits| == |ts| - i
    ensures Loop(ts, engine, Never, i, nextRead).stoppedAt == None
  {
  }

  /** The loop visits exactly the targets before the first check that sees
      the flag set, and all of them when no check does. */
  lemma LoopLengthIsFirstSeenCheck(ts: seq<string>, engine: seq<EngineCall>, stop: StopSignal, i: nat, nextRead: nat, n: nat)
    requires |engine| == |ts| && i + n <= |ts|
    requires forall k :: 0 <= k < n ==> !Observed(stop, CheckRead(engine, i, nextRead, k))
    requires i + n == |ts| || Observed(stop, CheckRead(engine, i, nextRead, n))
    ensures |Loop(ts, engine, stop, i, nextRead).visits| == n
    ensures Loop(ts, engine, stop, i, nextRead).stoppedAt == if i + n < |ts| then Some(i + n) else None
  {
  }

  /** Fault isolation: how far the loop gets depends on the progress the
      engine reports, never on whether the calls failed. */
  lemma {:induction false} OutcomesDoNotSteer(ts: seq<string>, e1: seq<EngineCall>, e2: seq<EngineCall>, stop: StopSignal, i: nat, nextRead: nat)
    requires |e1| == |ts| && |e2| == |ts| && i <= |ts|
    requires forall k :: 0 <= k < |ts| ==> e1[k].hooks == e2[k].hooks
    ensures |Loop(ts, e1, stop, i, nextRead).visits| == |Loop(ts, e2, stop, i, nextRead).visits|
    ensures Loop(ts, e1, stop, i, nextRead).stoppedAt == Loop(ts, e2, stop, i, nextRead).stoppedAt
    decreases |ts| - i
  {
    if i < |ts| && !Observed(stop, nextRead) {
      OutcomesDoNotSteer(ts, e1, e2, stop, i + 1, nextRead + 1 + |e1[i].hooks|);
    }
  }

  /** One pass of the loop, unfolded. */
  lemma LoopStep(ts: seq<string>, engine: seq<EngineCall>, stop: StopSignal, i: nat, nextRead: nat)
    requires |engine| == |ts| && i <= |ts|
    requires |Loop(ts, engine, stop, i, nextRead).visits| > 0
    ensures i < |ts| && !Observed(stop, nextRead)
    ensures var call := engine[i];
      var rest := Loop(ts, engine, stop, i + 1, nextRead + 1 + |call.hooks|);
      Loop(ts, engine, stop, i, nextRead)
        == LoopRun([Visit(i + 1, ts[i], nextRead, call.hooks, call.outcome)] + rest.visits,
                   rest.stoppedAt, rest.nextRead)
  {
  }

  /** A hook call raises only once the flag is seen set. */
  lemma RaisedMeansObserved(hooks: seq<Hook.HookDict>, stop: StopSignal, firstRead: nat, j: nat)
    requires j < |hooks| && Replies(hooks, stop, firstRead)[j].raised.Some?
    ensures Observed(stop, firstRead + j)
  {
    assert Replies(hooks, stop, firstRead)[j] == Hook.ProgressHook(hooks[j], Observed(stop, firstRead + j));
  }

  /** A flag seen set during a pass ends the batch: that pass is the last
      one, and the loop breaks right after it unless it was the last target. */
  lemma {:induction false} SeenDuringVisitEndsBatch(ts: seq<string>, engine: seq<EngineCall>, stop: StopSignal, i: nat, nextRead: nat, k: nat, j: nat)
    requires |engine| == |ts| && i <= |ts|
    requires k < |Loop(ts, engine, stop, i, nextRead).visits|
    requires j < |Loop(ts, engine, stop, i, nextRead).visits[k].hooks|
    requires Observed(stop, Loop(ts, engine, stop, i, nextRead).visits[k].checkedAt + 1 + j)
    ensures k == |Loop(ts, engine, stop, i, nextRead).visits| - 1
    ensures i + k + 1 < |ts| ==> Loop(ts, engine, stop, i, nextRead).stoppedAt == Some(i + k + 1)
    decreases |ts| - i
  {
    LoopStep(ts, engine, stop, i, nextRead);
    var next := nextRead + 1 + |engine[i].hooks|;
    if k == 0 {
      assert Observed(stop, next);
    } else {
      SeenDuringVisitEndsBatch(ts, engine, stop, i + 1, next, k - 1, j);
    }
  }

  /** A hook call that raised the cancellation ends the batch: the pass it
      belongs to is the last one, and no other target is downloaded. */
  lemma CancelEndsBatch(ts: seq<string>, engine: seq<EngineCall>, stop: StopSignal, k: nat, j: nat)
    requires |engine| == |ts|
    requires k < |Loop(ts, engine, stop, 0, 0).visits|
    requires j < |Loop(ts, engine, stop, 0, 0).visits[k].hooks|
    requires VisitReplies(Loop(ts, engine, stop, 0, 0).visits[k], stop)[j].raised.Some?
    ensures k == |Loop(ts, engine, stop, 0, 0).visits| - 1
    ensures k + 1 < |ts| ==> Loop(ts, engine, stop, 0, 0).stoppedAt == Some(k + 1)
  {
    var v := Loop(ts, engine, stop, 0, 0).visits[k];
    RaisedMeansObserved(v.hooks, stop, v.checkedAt + 1, j);
    SeenDuringVisitEndsBatch(ts, engine, stop, 0, 0, k, j);
  }

  // ---------------------------------------------------------------------------
  // The events of a run
  // ---------------------------------------------------------------------------

  /** `f"[{idx}/{len(targets)}] {url}"`. */
  function Header(index: nat, count: nat, url: string): (s: string)
    ensures |s| > 0 && s[0] == '['
  {
    "[" + Text.IntToString(index) + "/" + Text.IntToString(count) + "] " + url
  }

  /** `f"✗ ERROR: {e}"`. */
  function ErrorLine(message: string): (s: string)
    ensures |s| > 0 && s[0] == '✗'
  {
    "✗ ERROR: " + message
  }

  /** The status events the hook calls queued, in order. */
  function HookStatuses(replies: seq<Hook.HookReply>): seq<Event> {
    if replies == [] then []
    else
      (if replies[0].status.Some? then [Status(replies[0].status.value)] else [])
      + HookStatuses(replies[1..])
  }

  /** The events of one pass: the header, the hook's statuses, and the error
      line if the engine call raised. */
  function VisitEvents(v: Visit, count: nat, stop: StopSignal): seq<Event> {
    [Log(Header(v.index, count, v.url))]
    + HookStatuses(VisitReplies(v, stop))
    + (if v.outcome.Err? then [Log(ErrorLine(v.outcome.message))] else [])
  }

  function LoopEvents(vs: seq<Visit>, count: nat, stop: StopSignal): seq<Event> {
    if vs == [] then [] else VisitEvents(vs[0], count, stop) + LoopEvents(vs[1..], count, stop)
  }

  /** Log events for the lines, in order. */
  function Logs(lines: seq<string>): (q: seq<Event>)
    ensures |q| == |lines| && forall k :: 0 <= k < |lines| ==> q[k] == Log(lines[k])
  {
    if lines == [] then [] else [Log(lines[0])] + Logs(lines[1..])
  }

  /** The log lines before the loop: the output folder, the format, and the
      cookies file and archive when they are set and not empty. */
  function PreludeLines(outDir: string, opts: Options.Opts): seq<string> {
    ["Output: " + outDir, "Format: " + opts.format]
    + (if Options.Truthy(opts.cookiefile) then ["ใช้ cookies: " + opts.cookiefile.value] else [])
    + (if Options.Truthy(opts.downloadArchive) then ["ใช้ archive: " + opts.downloadArchive.value] else [])
  }

  /** `_log` of each prelude line. */
  function Prelude(outDir: string, opts: Options.Opts): seq<Event> {
    Logs(PreludeLines(outDir, opts))
  }

  /** The loop of a run whose options were built. */
  function RunLoop(job: Job, engine: seq<EngineCall>, stop: StopSignal): LoopRun
    requires |engine| == |JobTargets(job)|
  {
    Loop(JobTargets(job), engine, stop, 0, 0)
  }

  /** `_run_download(profile, url_lines, out_dir)` with the form as the worker
      reads it: every event it queues, in order. Whatever happens, the last
      event is the one stop event; when the options could be built, the
      done status comes right before it; when they could not, nothing else
      is queued. */
  function Run(job: Job, form: Options.Form, engine: seq<EngineCall>, stop: StopSignal): (events: seq<Event>)
    requires |engine| == |JobTargets(job)|
    ensures |events| >= 1 && events[|events| - 1] == StopEvent
    ensures forall k :: 0 <= k < |events| - 1 ==> events[k].kind != "stop"
    ensures Options.BuildOpts(job.outDir, form).None? <==> events == [StopEvent]
    ensures Options.BuildOpts(job.outDir, form).Some? ==> |events| >= 2 && events[|events| - 2] == Status(DoneStatus)
  {
    match Options.BuildOpts(job.outDir, form)
    case None => [StopEvent]
    case Some(opts) => RunBuilt(job, opts, engine, stop)
  }

  /** The events of a run whose options were built: the prelude, the loop's
      events, then the done status and the stop event. */
  function RunBuilt(job: Job, opts: Options.Opts, engine: seq<EngineCall>, stop: StopSignal): (events: seq<Event>)
    requires |engine| == |JobTargets(job)|
    ensures |events| >= 2 && events[|events| - 1] == StopEvent && events[|events| - 2] == Status(DoneStatus)
    ensures forall k :: 0 <= k < |events| - 1 ==> events[k].kind != "stop"
  {
    var body := Prelude(job.outDir, opts) + LoopEvents(RunLoop(job, engine, stop).visits, |JobTargets(job)|, stop);
    NoStopInBody(job, opts, engine, stop);
    Finish(body)
  }

  /** The run's events after the body: the done status from the `try`, then
      the stop event from the `finally`. */
  function Finish(body: seq<Event>): (events: seq<Event>)
    requires !HasStop(body)
    ensures |events| >= 2 && events[|events| - 1] == StopEvent && events[|events| - 2] == Status(DoneStatus)
    ensures forall k :: 0 <= k < |events| - 1 ==> events[k].kind != "stop"
    ensures events != [StopEvent]
  {
    var events := body + [Status(DoneStatus), StopEvent];
    assert events[..|events| - 1] == body + [Status(DoneStatus)];
    NoStopAppend(body, [Status(DoneStatus)]);
    assert forall k :: 0 <= k < |events| - 1 ==> events[k] == events[..|events| - 1][k];
    events
  }

  // ---------------------------------------------------------------------------
  // No stop event before the end
  // ---------------------------------------------------------------------------

  lemma NoStopAppend(a: seq<Event>, b: seq<Event>)
    requires !HasStop(a) && !HasStop(b)
    ensures !HasStop(a + b)
  {
    forall k | 0 <= k < |a + b| ensures (a + b)[k].kind != "stop" {
      if k >= |a| {
        assert (a + b)[k] == b[k - |a|];
      }
    }
  }

  lemma {:induction false} NoStopInStatuses(replies: seq<Hook.HookReply>)
    ensures !HasStop(HookStatuses(replies))
  {
    if replies != [] {
      NoStopInStatuses(replies[1..]);
      NoStopAppend(if replies[0].status.Some? then [Status(replies[0].status.value)] else [], HookStatuses(replies[1..]));
    }
  }

  lemma NoStopInVisit(v: Visit, count: nat, stop: StopSignal)
    ensures !HasStop(VisitEvents(v, count, stop))
  {
    NoStopInStatuses(VisitReplies(v, stop));
    NoStopAppend([Log(Header(v.index, count, v.url))], HookStatuses(VisitReplies(v, stop)));
    NoStopAppend([Log(Header(v.index, count, v.url))] + HookStatuses(VisitReplies(v, stop)),
                 if v.outcome.Err? then [Log(ErrorLine(v.outcome.message))] else []);
  }

  lemma {:induction false} NoStopInLoop(vs: seq<Visit>, count: nat, stop: StopSignal)
    ensures !HasStop(LoopEvents(vs, count, stop))
  {
    if vs != [] {
      NoStopInVisit(vs[0], count, stop);
      NoStopInLoop(vs[1..], count, stop);
      NoStopAppend(VisitEvents(vs[0], count, stop), LoopEvents(vs[1..], count, stop));
    }
  }

  lemma NoStopInPrelude(outDir: string, opts: Options.Opts)
    ensures !HasStop(Prelude(outDir, opts))
  {
  }

  lemma NoStopInBody(job: Job, opts: Options.Opts, engine: seq<EngineCall>, stop: StopSignal)
    requires |engine| == |JobTargets(job)|
    ensures !HasStop(Prelude(job.outDir, opts) + LoopEvents(RunLoop(job, engine, stop).visits, |JobTargets(job)|, stop))
  {
    NoStopInPrelude(job.outDir, opts);
    NoStopInLoop(RunLoop(job, engine, stop).visits, |JobTargets(job)|, stop);
    NoStopAppend(Prelude(job.outDir, opts), LoopEvents(RunLoop(job, engine, stop).visits, |JobTargets(job)|, stop));
  }

  // ---------------------------------------------------------------------------
  // Reading the log back: headers and error lines
  // ---------------------------------------------------------------------------

  /** The payloads of the log events whose text starts with one of `cs`, in
      order. */
  function LogsStartingWith(q: seq<Event>, cs: set<char>): seq<string> {
    if q == [] then []
    else
      (if q[0].kind == "log" && q[0].payload != [] && q[0].payload[0] in cs then [q[0].payload] else [])
      + LogsStartingWith(q[1..], cs)
  }

  lemma {:induction false} LogsStartingWithAppend(a: seq<Event>, b: seq<Event>, cs: set<char>)
    ensures LogsStartingWith(a + b, cs) == LogsStartingWith(a, cs) + LogsStartingWith(b, cs)
    decreases |a|
  {
    if a == [] {
      assert a + b == b;
    } else {
      assert (a + b)[0] == a[0];
      assert (a + b)[1..] == a[1..] + b;
      LogsStartingWithAppend(a[1..], b, cs);
    }
  }

  lemma {:induction false} NoLogsInStatuses(replies: seq<Hook.HookReply>, cs: set<char>)
    ensures LogsStartingWith(HookStatuses(replies), cs) == []
  {
    if replies != [] {
      NoLogsInStatuses(replies[1..], cs);
      LogsStartingWithAppend(if replies[0].status.Some? then [Status(replies[0].status.value)] else [],
                             HookStatuses(replies[1..]), cs);
    }
  }

  /** The header lines of the passes, in order. */
  function HeaderLines(vs: seq<Visit>, count: nat): (hs: seq<string>)
    ensures |hs| == |vs|
    ensures forall k :: 0 <= k < |vs| ==> hs[k] == Header(vs[k].index, count, vs[k].url)
  {
    if vs == [] then []
    else
      var rest := HeaderLines(vs[1..], count);
      assert forall k :: 0 <= k < |rest| ==> vs[1..][k] == vs[k + 1];
      [Header(vs[0].index, count, vs[0].url)] + rest
  }

  /** The error lines of the calls that raised, in order. */
  function ErrorLines(calls: seq<Outcome>): seq<string> {
    if calls == [] then []
    else
      (if calls[0].Err? then [ErrorLine(calls[0].message)] else []) + ErrorLines(calls[1..])
  }

  function Outcomes(vs: seq<Visit>): (os: seq<Outcome>)
    ensures |os| == |vs| && forall k :: 0 <= k < |vs| ==> os[k] == vs[k].outcome
  {
    if vs == [] then [] else [vs[0].outcome] + Outcomes(vs[1..])
  }

  /** The header and error lines one pass writes: its own header, then its
      own error line right after it if the call raised. */
  function PassLines(index: nat, count: nat, url: string, outcome: Outcome): (ls: seq<string>)
    ensures |ls| >= 1 && ls[0] == Header(index, count, url)
    ensures |ls| == 2 <==> outcome.Err?
    ensures outcome.Err? ==> ls[1] == ErrorLine(outcome.message)
    ensures |ls| <= 2
  {
    [Header(index, count, url)] + (if outcome.Err? then [ErrorLine(outcome.message)] else [])
  }

  /** The header and error lines of the passes, pass after pass. */
  function VisitsLines(vs: seq<Visit>, count: nat): seq<string> {
    if vs == [] then [] else PassLines(vs[0].index, count, vs[0].url, vs[0].outcome) + VisitsLines(vs[1..], count)
  }

  /** The header and error lines the targets `i` to `i + n - 1` would write,
      read off the target list and the engine's outcomes alone. */
  function TargetLines(ts: seq<string>, engine: seq<EngineCall>, i: nat, n: nat): seq<string>
    requires |engine| == |ts| && i + n <= |ts|
    decreases n
  {
    if n == 0 then [] else PassLines(i + 1, |ts|, ts[i], engine[i].outcome) + TargetLines(ts, engine, i + 1, n - 1)
  }

  lemma VisitHeaders(v: Visit, count: nat, stop: StopSignal)
    ensures LogsStartingWith(VisitEvents(v, count, stop), {'['}) == [Header(v.index, count, v.url)]
    ensures LogsStartingWith(VisitEvents(v, count, stop), {'✗'}) == if v.outcome.Err? then [ErrorLine(v.outcome.message)] else []
    ensures LogsStartingWith(VisitEvents(v, count, stop), {'[', '✗'}) == PassLines(v.index, count, v.url, v.outcome)
  {
    var head := [Log(Header(v.index, count, v.url))];
    var mid := HookStatuses(VisitReplies(v, stop));
    var tail := if v.outcome.Err? then [Log(ErrorLine(v.outcome.message))] else [];
    LogsStartingWithAppend(head + mid, tail, {'['});
    LogsStartingWithAppend(head, mid, {'['});
    LogsStartingWithAppend(head + mid, tail, {'✗'});
    LogsStartingWithAppend(head, mid, {'✗'});
    LogsStartingWithAppend(head + mid, tail, {'[', '✗'});
    LogsStartingWithAppend(head, mid, {'[', '✗'});
    NoLogsInStatuses(VisitReplies(v, stop), {'['});
    NoLogsInStatuses(VisitReplies(v, stop), {'✗'});
    NoLogsInStatuses(VisitReplies(v, stop), {'[', '✗'});
  }

  lemma {:induction false} LoopHeaders(vs: seq<Visit>, count: nat, stop: StopSignal)
    ensures LogsStartingWith(LoopEvents(vs, count, stop), {'['}) == HeaderLines(vs, count)
    ensures LogsStartingWith(LoopEvents(vs, count, stop), {'✗'}) == ErrorLines(Outcomes(vs))
    ensures LogsStartingWith(LoopEvents(vs, count, stop), {'[', '✗'}) == VisitsLines(vs, count)
  {
    if vs != [] {
      VisitHeaders(vs[0], count, stop);
      LoopHeaders(vs[1..], count, stop);
      LogsStartingWithAppend(VisitEvents(vs[0], count, stop), LoopEvents(vs[1..], count, stop), {'['});
      LogsStartingWithAppend(VisitEvents(vs[0], count, stop), LoopEvents(vs[1..], count, stop), {'✗'});
      LogsStartingWithAppend(VisitEvents(vs[0], count, stop), LoopEvents(vs[1..], count, stop), {'[', '✗'});
      assert Outcomes(vs)[1..] == Outcomes(vs[1..]);
    }
  }

  /** No line of the prelude starts like a header or an error line. */
  lemma PreludeHasNoHeaders(outDir: string, opts: Options.Opts, cs: set<char>)
    requires cs <= {'[', '✗'}
    ensures LogsStartingWith(Prelude(outDir, opts), cs) == []
  {
    var p := Prelude(outDir, opts);
    forall k | 0 <= k < |p| ensures p[k].payload != [] && p[k].payload[0] != '[' && p[k].payload[0] != '✗' {
    }
    PayloadsAvoid(p, cs);
  }

  lemma {:induction false} PayloadsAvoid(q: seq<Event>, cs: set<char>)
    requires forall k :: 0 <= k < |q| ==> q[k].payload == [] || q[k].payload[0] !in cs
    ensures LogsStartingWith(q, cs) == []
  {
    if q != [] {
      PayloadsAvoid(q[1..], cs);
    }
  }

  /** A run whose options were built, taken apart. */
  lemma RunShape(job: Job, form: Options.Form, engine: seq<EngineCall>, stop: StopSignal)
    requires |engine| == |JobTargets(job)| && form.maxVideos.Some?
    ensures var opts := Options.BuildOpts(job.outDir, form).value;
      Run(job, form, engine, stop)
        == Prelude(job.outDir, opts) + LoopEvents(RunLoop(job, engine, stop).visits, |JobTargets(job)|, stop)
           + [Status(DoneStatus), StopEvent]
  {
  }

  lemma RunHeaderLines(job: Job, form: Options.Form, engine: seq<EngineCall>, stop: StopSignal)
    requires |engine| == |JobTargets(job)| && form.maxVideos.Some?
    ensures LogsStartingWith(Run(job, form, engine, stop), {'['})
      == HeaderLines(RunLoop(job, engine, stop).visits, |JobTargets(job)|)
  {
    var opts := Options.BuildOpts(job.outDir, form).value;
    var n := |JobTargets(job)|;
    var vs := RunLoop(job, engine, stop).visits;
    RunShape(job, form, engine, stop);
    RunLogs(Prelude(job.outDir, opts), LoopEvents(vs, n, stop), {'['});
    PreludeHasNoHeaders(job.outDir, opts, {'['});
    LoopHeaders(vs, n, stop);
  }

  /** Each downloaded target is announced by exactly one `[idx/n] url` line,
      in list order, and the targets announced are exactly the first ones of
      the list, up to where the loop stopped. */
  lemma RunHeaders(job: Job, form: Options.Form, engine: seq<EngineCall>, stop: StopSignal)
    requires |engine| == |JobTargets(job)| && form.maxVideos.Some?
    ensures var hs := LogsStartingWith(Run(job, form, engine, stop), {'['});
      var ts := JobTargets(job);
      && |hs| == |RunLoop(job, engine, stop).visits|
      && forall k :: 0 <= k < |hs| ==> hs[k] == Header(k + 1, |ts|, ts[k])
  {
    RunHeaderLines(job, form, engine, stop);
    HeadersOfLoop(JobTargets(job), engine, stop);
  }

  /** The header lines of a loop started at the first target name the
      targets in list order, with 1-based indices. */
  lemma HeadersOfLoop(ts: seq<string>, engine: seq<EngineCall>, stop: StopSignal)
    requires |engine| == |ts|
    ensures var vs := Loop(ts, engine, stop, 0, 0).visits;
      var hs := HeaderLines(vs, |ts|);
      |hs| == |vs| && forall k :: 0 <= k < |hs| ==> hs[k] == Header(k + 1, |ts|, ts[k])
  {
    var vs := Loop(ts, engine, stop, 0, 0).visits;
    HeaderLinesInOrder(vs, ts, |ts|);
  }

  lemma HeaderLinesInOrder(vs: seq<Visit>, ts: seq<string>, count: nat)
    requires |vs| <= |ts|
    requires forall k :: 0 <= k < |vs| ==> vs[k].index == k + 1 && vs[k].url == ts[k]
    ensures forall k :: 0 <= k < |vs| ==> HeaderLines(vs, count)[k] == Header(k + 1, count, ts[k])
  {
  }

  /** Fault isolation in the log: one `✗ ERROR` line per engine call that
      raised, in order, carrying the error's message, and nothing else. */
  lemma RunErrors(job: Job, form: Options.Form, engine: seq<EngineCall>, stop: StopSignal)
    requires |engine| == |JobTargets(job)| && form.maxVideos.Some?
    ensures var made := |RunLoop(job, engine, stop).visits|;
      made <= |engine| &&
      LogsStartingWith(Run(job, form, engine, stop), {'✗'}) == ErrorLines(seq(made, k requires 0 <= k < made => engine[k].outcome))
  {
    RunErrorLines(job, form, engine, stop);
    LoopOutcomes(JobTargets(job), engine, stop);
  }

  lemma RunErrorLines(job: Job, form: Options.Form, engine: seq<EngineCall>, stop: StopSignal)
    requires |engine| == |JobTargets(job)| && form.maxVideos.Some?
    ensures LogsStartingWith(Run(job, form, engine, stop), {'✗'})
      == ErrorLines(Outcomes(RunLoop(job, engine, stop).visits))
  {
    var opts := Options.BuildOpts(job.outDir, form).value;
    var n := |JobTargets(job)|;
    var vs := RunLoop(job, engine, stop).visits;
    RunShape(job, form, engine, stop);
    RunLogs(Prelude(job.outDir, opts), LoopEvents(vs, n, stop), {'✗'});
    PreludeHasNoHeaders(job.outDir, opts, {'✗'});
    LoopHeaders(vs, n, stop);
  }

  /** Each target's error line comes right after its own header, before the
      next target's header: read together, the header and error lines of a
      run are, target after target up to where the loop stopped, the
      target's `[i/n] url` line followed by its `✗ ERROR` line when its
      engine call raised. */
  lemma RunPassLines(job: Job, form: Options.Form, engine: seq<EngineCall>, stop: StopSignal)
    requires |engine| == |JobTargets(job)| && form.maxVideos.Some?
    ensures var made := |RunLoop(job, engine, stop).visits|;
      made <= |engine| &&
      LogsStartingWith(Run(job, form, engine, stop), {'[', '✗'}) == TargetLines(JobTargets(job), engine, 0, made)
  {
    RunVisitsLines(job, form, engine, stop);
    LoopTargetLines(JobTargets(job), engine, stop);
  }

  lemma RunVisitsLines(job: Job, form: Options.Form, engine: seq<EngineCall>, stop: StopSignal)
    requires |engine| == |JobTargets(job)| && form.maxVideos.Some?
    ensures LogsStartingWith(Run(job, form, engine, stop), {'[', '✗'})
      == VisitsLines(RunLoop(job, engine, stop).visits, |JobTargets(job)|)
  {
    var opts := Options.BuildOpts(job.outDir, form).value;
    var n := |JobTargets(job)|;
    var vs := RunLoop(job, engine, stop).visits;
    RunShape(job, form, engine, stop);
    RunLogs(Prelude(job.outDir, opts), LoopEvents(vs, n, stop), {'[', '✗'});
    PreludeHasNoHeaders(job.outDir, opts, {'[', '✗'});
    LoopHeaders(vs, n, stop);
  }

  /** The lines of a loop started at the first target are the targets'
      lines up to where it stopped. */
  lemma LoopTargetLines(ts: seq<string>, engine: seq<EngineCall>, stop: StopSignal)
    requires |engine| == |ts|
    ensures var vs := Loop(ts, engine, stop, 0, 0).visits;
      |vs| <= |ts| && VisitsLines(vs, |ts|) == TargetLines(ts, engine, 0, |vs|)
  {
    VisitsLinesInOrder(Loop(ts, engine, stop, 0, 0).visits, ts, engine, 0);
  }

  /** Visits that follow the targets from position `i` write the targets'
      lines. */
  lemma {:induction false} VisitsLinesInOrder(vs: seq<Visit>, ts: seq<string>, engine: seq<EngineCall>, i: nat)
    requires |engine| == |ts| && i + |vs| <= |ts|
    requires forall k :: 0 <= k < |vs| ==>
      vs[k].index == i + k + 1 && vs[k].url == ts[i + k] && vs[k].outcome == engine[i + k].outcome
    ensures VisitsLines(vs, |ts|) == TargetLines(ts, engine, i, |vs|)
    decreases |vs|
  {
    if vs != [] {
      assert vs[0].index == i + 1 && vs[0].url == ts[i] && vs[0].outcome == engine[i].outcome;
      forall k | 0 <= k < |vs| - 1
        ensures vs[1..][k].index == i + 1 + k + 1 && vs[1..][k].url == ts[i + 1 + k] && vs[1..][k].outcome == engine[i + 1 + k].outcome
      {
        assert vs[1..][k] == vs[k + 1];
      }
      VisitsLinesInOrder(vs[1..], ts, engine, i + 1);
    }
  }

  /** The outcomes of the visits are those of the first engine calls. */
  lemma LoopOutcomes(ts: seq<string>, engine: seq<EngineCall>, stop: StopSignal)
    requires |engine| == |ts|
    ensures var vs := Loop(ts, engine, stop, 0, 0).visits;
      |vs| <= |engine| && Outcomes(vs) == seq(|vs|, k requires 0 <= k < |vs| => engine[k].outcome)
  {
    OutcomesInOrder(Loop(ts, engine, stop, 0, 0).visits, engine);
  }

  lemma OutcomesInOrder(vs: seq<Visit>, calls: seq<EngineCall>)
    requires |vs| <= |calls|
    requires forall k :: 0 <= k < |vs| ==> vs[k].outcome == calls[k].outcome
    ensures Outcomes(vs) == seq(|vs|, k requires 0 <= k < |vs| => calls[k].outcome)
  {
  }

  lemma RunLogs(pre: seq<Event>, body: seq<Event>, cs: set<char>)
    ensures LogsStartingWith(pre + body + [Status(DoneStatus), StopEvent], cs)
      == LogsStartingWith(pre, cs) + LogsStartingWith(body, cs)
  {
    LogsStartingWithAppend(pre + body, [Status(DoneStatus), StopEvent], cs);
    LogsStartingWithAppend(pre, body, cs);
    var t := [Status(DoneStatus), StopEvent];
    assert t[1..][1..] == [];
    assert LogsStartingWith(t[1..], cs) == [];
    assert LogsStartingWith(t, cs) == [];
  }

  // ---------------------------------------------------------------------------
  // The whole log and every status of a run
  // ---------------------------------------------------------------------------

  /** The lines announced before the loop, read off the form: the output
      folder, the format, the stripped cookies path when it is not blank, and
      the stripped archive path when the box is ticked and it is not blank. */
  ghost function AnnouncedLines(outDir: string, f: Options.Form): seq<string> {
    ["Output: " + outDir, "Format: " + FormatPolicy.FormatSelector(f.quality)]
    + (if Text.AllSpace(f.cookiesPath) then [] else ["ใช้ cookies: " + Text.Strip(f.cookiesPath)])
    + (if f.useArchive && !Text.AllSpace(f.archivePath) then ["ใช้ archive: " + Text.Strip(f.archivePath)] else [])
  }

  /** The statuses the hook calls of one engine call queued, in order. */
  function ReplyStatuses(replies: seq<Hook.HookReply>): (ss: seq<string>)
    ensures |ss| <= |replies|
  {
    if replies == [] then []
    else
      (if replies[0].status.Some? then [replies[0].status.value] else []) + ReplyStatuses(replies[1..])
  }

  /** The statuses of the passes, pass after pass. */
  function VisitsStatuses(vs: seq<Visit>, stop: StopSignal): seq<string> {
    if vs == [] then [] else ReplyStatuses(VisitReplies(vs[0], stop)) + VisitsStatuses(vs[1..], stop)
  }

  /** The log lines of a run, in queue order: the announced lines, then each
      visited target's header followed by its own error line when its call
      raised. A run whose options could not be built logs nothing. */
  lemma RunLogText(job: Job, form: Options.Form, engine: seq<EngineCall>, stop: StopSignal)
    requires |engine| == |JobTargets(job)|
    ensures var made := |RunLoop(job, engine, stop).visits|;
      made <= |engine| &&
      (form.maxVideos.Some? ==>
        LogPayloads(Run(job, form, engine, stop))
          == AnnouncedLines(job.outDir, form) + TargetLines(JobTargets(job), engine, 0, made))
    ensures form.maxVideos.None? ==> LogPayloads(Run(job, form, engine, stop)) == []
  {
    if form.maxVideos.Some? {
      var opts := Options.BuildOpts(job.outDir, form).value;
      var vs := RunLoop(job, engine, stop).visits;
      RunPayloads(job, form, engine, stop);
      PreludePayloads(job.outDir, form);
      LoopPayloads(vs, |JobTargets(job)|, stop);
      LoopTargetLines(JobTargets(job), engine, stop);
    } else {
      OnePayload(StopEvent);
    }
  }

  /** The statuses of a run, in queue order: those the hook queued during
      each visited target's engine call, pass after pass, then "เสร็จสิ้น".
      A run whose options could not be built queues none. */
  lemma RunStatuses(job: Job, form: Options.Form, engine: seq<EngineCall>, stop: StopSignal)
    requires |engine| == |JobTargets(job)|
    ensures form.maxVideos.Some? ==>
      StatusPayloads(Run(job, form, engine, stop))
        == VisitsStatuses(RunLoop(job, engine, stop).visits, stop) + [DoneStatus]
    ensures form.maxVideos.None? ==> StatusPayloads(Run(job, form, engine, stop)) == []
  {
    if form.maxVideos.Some? {
      var vs := RunLoop(job, engine, stop).visits;
      var pre := Prelude(job.outDir, Options.BuildOpts(job.outDir, form).value);
      var body := LoopEvents(vs, |JobTargets(job)|, stop);
      RunPayloads(job, form, engine, stop);
      PreludePayloads(job.outDir, form);
      LoopPayloads(vs, |JobTargets(job)|, stop);
      assert StatusPayloads(pre) == [];
      assert StatusPayloads(body) == VisitsStatuses(vs, stop);
      assert StatusPayloads(Run(job, form, engine, stop)) == [] + VisitsStatuses(vs, stop) + [DoneStatus];
      assert [] + VisitsStatuses(vs, stop) == VisitsStatuses(vs, stop);
    } else {
      OnePayload(StopEvent);
    }
  }

  /** A built run's payloads are those of its prelude, then of its loop,
      then the done status. */
  lemma RunPayloads(job: Job, form: Options.Form, engine: seq<EngineCall>, stop: StopSignal)
    requires |engine| == |JobTargets(job)| && form.maxVideos.Some?
    ensures var opts := Options.BuildOpts(job.outDir, form).value;
      var pre := Prelude(job.outDir, opts);
      var body := LoopEvents(RunLoop(job, engine, stop).visits, |JobTargets(job)|, stop);
      && LogPayloads(Run(job, form, engine, stop)) == LogPayloads(pre) + LogPayloads(body)
      && StatusPayloads(Run(job, form, engine, stop)) == StatusPayloads(pre) + StatusPayloads(body) + [DoneStatus]
  {
    var opts := Options.BuildOpts(job.outDir, form).value;
    RunShape(job, form, engine, stop);
    FinishPayloads(Prelude(job.outDir, opts), LoopEvents(RunLoop(job, engine, stop).visits, |JobTargets(job)|, stop));
  }

  lemma FinishPayloads(pre: seq<Event>, body: seq<Event>)
    ensures LogPayloads(pre + body + [Status(DoneStatus), StopEvent]) == LogPayloads(pre) + LogPayloads(body)
    ensures StatusPayloads(pre + body + [Status(DoneStatus), StopEvent]) == StatusPayloads(pre) + StatusPayloads(body) + [DoneStatus]
  {
    var tail := [Status(DoneStatus), StopEvent];
    LogPayloadsAppend(pre + body, tail);
    LogPayloadsAppend(pre, body);
    StatusPayloadsAppend(pre + body, tail);
    StatusPayloadsAppend(pre, body);
    assert tail[..1] == [Status(DoneStatus)];
    OnePayload(Status(DoneStatus));
  }

  /** The prelude logs the announced lines and queues no status. */
  lemma PreludePayloads(outDir: string, form: Options.Form)
    requires form.maxVideos.Some?
    ensures LogPayloads(Prelude(outDir, Options.BuildOpts(outDir, form).value)) == AnnouncedLines(outDir, form)
    ensures StatusPayloads(Prelude(outDir, Options.BuildOpts(outDir, form).value)) == []
  {
    var opts := Options.BuildOpts(outDir, form).value;
    LogsPayloads(PreludeLines(outDir, opts));
    AnnouncedFromForm(outDir, form);
  }

  /** The options built from a form announce what the form holds. */
  lemma AnnouncedFromForm(outDir: string, form: Options.Form)
    requires form.maxVideos.Some?
    ensures PreludeLines(outDir, Options.BuildOpts(outDir, form).value) == AnnouncedLines(outDir, form)
  {
    Options.FormatIsSelectorOutput(outDir, form);
    Options.CookiesNeverBlank(outDir, form);
  }

  lemma LogsAppend(a: seq<string>, b: seq<string>)
    ensures Logs(a + b) == Logs(a) + Logs(b)
  {
  }

  lemma {:induction false} LogsPayloads(lines: seq<string>)
    ensures LogPayloads(Logs(lines)) == lines
    ensures StatusPayloads(Logs(lines)) == []
    decreases |lines|
  {
    if lines != [] {
      LogsPayloads(lines[1..]);
      LogConsPayloads(lines[0], Logs(lines[1..]));
      assert [lines[0]] + lines[1..] == lines;
    }
  }

  lemma LogConsPayloads(line: string, rest: seq<Event>)
    ensures LogPayloads([Log(line)] + rest) == [line] + LogPayloads(rest)
    ensures StatusPayloads([Log(line)] + rest) == StatusPayloads(rest)
  {
    LogPayloadsAppend([Log(line)], rest);
    StatusPayloadsAppend([Log(line)], rest);
    OnePayload(Log(line));
  }

  /** The hook's statuses are statuses only. */
  lemma {:induction false} StatusesPayloads(replies: seq<Hook.HookReply>)
    ensures LogPayloads(HookStatuses(replies)) == []
    ensures StatusPayloads(HookStatuses(replies)) == ReplyStatuses(replies)
  {
    if replies != [] {
      var first := if replies[0].status.Some? then [Status(replies[0].status.value)] else [];
      StatusesPayloads(replies[1..]);
      LogPayloadsAppend(first, HookStatuses(replies[1..]));
      StatusPayloadsAppend(first, HookStatuses(replies[1..]));
      if replies[0].status.Some? {
        OnePayload(Status(replies[0].status.value));
      }
    }
  }

  /** One pass logs its header and error lines and queues its hook's
      statuses. */
  lemma VisitPayloads(v: Visit, count: nat, stop: StopSignal)
    ensures LogPayloads(VisitEvents(v, count, stop)) == PassLines(v.index, count, v.url, v.outcome)
    ensures StatusPayloads(VisitEvents(v, count, stop)) == ReplyStatuses(VisitReplies(v, stop))
  {
    var replies := VisitReplies(v, stop);
    StatusesPayloads(replies);
    if v.outcome.Err? {
      LogsPayloads([ErrorLine(v.outcome.message)]);
      PassPayloads(Header(v.index, count, v.url), HookStatuses(replies), [ErrorLine(v.outcome.message)]);
    } else {
      LogsPayloads([]);
      PassPayloads(Header(v.index, count, v.url), HookStatuses(replies), []);
    }
  }

  /** A header, events that log nothing, then log lines. */
  lemma PassPayloads(header: string, mid: seq<Event>, tail: seq<string>)
    requires LogPayloads(mid) == []
    ensures LogPayloads([Log(header)] + mid + Logs(tail)) == [header] + LogPayloads(Logs(tail))
    ensures StatusPayloads([Log(header)] + mid + Logs(tail)) == StatusPayloads(mid) + StatusPayloads(Logs(tail))
  {
    var rest := mid + Logs(tail);
    assert [Log(header)] + mid + Logs(tail) == [Log(header)] + rest;
    LogConsPayloads(header, rest);
    LogPayloadsAppend(mid, Logs(tail));
    StatusPayloadsAppend(mid, Logs(tail));
  }

  lemma {:induction false} LoopPayloads(vs: seq<Visit>, count: nat, stop: StopSignal)
    ensures LogPayloads(LoopEvents(vs, count, stop)) == VisitsLines(vs, count)
    ensures StatusPayloads(LoopEvents(vs, count, stop)) == VisitsStatuses(vs, stop)
  {
    if vs != [] {
      VisitPayloads(vs[0], count, stop);
      LoopPayloads(vs[1..], count, stop);
      LogPayloadsAppend(VisitEvents(vs[0], count, stop), LoopEvents(vs[1..], count, stop));
      StatusPayloadsAppend(VisitEvents(vs[0], count, stop), LoopEvents(vs[1..], count, stop));
    }
  }

  /** What the window shows once it has drained a whole run: the bar is
      stopped, and the label reads the done status unless the options could
      not be built, in which case it is left as it was. A cancelled run ends
      the same way as a completed one. */
  lemma RunLeavesWindowDone(ui: Ui, job: Job, form: Options.Form, engine: seq<EngineCall>, stop: StopSignal)
    requires |engine| == |JobTargets(job)|
    ensures !Poll(ui, Run(job, form, engine, stop)).barRunning
    ensures form.maxVideos.Some? ==> Poll(ui, Run(job, form, engine, stop)).statusText == DoneStatus
    ensures form.maxVideos.None? ==> Poll(ui, Run(job, form, engine, stop)).statusText == ui.statusText
  {
    var events := Run(job, form, engine, stop);
    if form.maxVideos.Some? {
      var body := events[..|events| - 2];
      assert events == body + [Status(DoneStatus), StopEvent];
      PollEndsAt(ui, body, DoneStatus);
    } else {
      assert events == [StopEvent];
      assert [StopEvent][..0] == [];
      assert HasStop(events) by { assert events[0].kind == "stop"; }
    }
  }
}

=== FILE: Targets.dfy ===
/** Target resolution: the ordered list of URLs one batch downloads, built from
    the profile field and the multi-line URL box (`start` and the top of
    `_run_download`). */
module Targets {
  import opened Text

  /** The URL lines of the box as `start` reads them: the whole text stripped,
      split into lines, each line stripped, blank lines dropped. The contract
      gives the same list without the outer strip or the "\r\n" rule: every
      stripped, non-blank run between two line-break characters, in order. */
  function UrlLines(box: string): (lines: seq<string>)
    ensures lines == NonBlank(Segments(box))
    ensures AllClean(lines) && AllNoBreak(lines)
  {
    SegmentsStrip(box);
    SplitLinesAgreesWithSegments(Strip(box));
    SegmentsNoBreak(box);
    NonBlankNoBreak(Segments(box));
    NonBlankClean(Segments(box));
    NonBlank(SplitLines(Strip(box)))
  }

  /** The list `_run_download` iterates: the profile first when it is not
      empty, then the URL lines in their order. */
  function TargetList(profile: string, lines: seq<string>): seq<string> {
    (if profile != "" then [profile] else []) + lines
  }

  /** The targets one press of the start button would download, from the raw
      field texts: the stripped profile when it is not blank, then every
      stripped non-blank line of the box, in order, duplicates kept. */
  function Resolve(profileField: string, box: string): (ts: seq<string>)
    ensures ts == Kept(profileField) + NonBlank(Segments(box))
  {
    TargetList(Strip(profileField), UrlLines(box))
  }

  /** Every target is a non-empty stripped string. */
  lemma ResolvedTargetsClean(profileField: string, box: string)
    ensures AllClean(Resolve(profileField, box))
  {
    NonBlankClean(Segments(box));
    NonBlankClean([profileField]);
    assert NonBlank([profileField]) == Kept(profileField);
    AllCleanAppend(Kept(profileField), NonBlank(Segments(box)));
  }

  /** There is nothing to download exactly when the profile field is blank and
      every line of the box is blank. */
  lemma NoTargetsIffAllBlank(profileField: string, box: string)
    ensures Resolve(profileField, box) == [] <==> AllSpace(profileField) && AllSpace(box)
  {
    BlankSegmentsIffAllSpace(box);
  }

  /** The segments are all blank exactly when the text is all whitespace. */
  lemma {:induction false} BlankSegmentsIffAllSpace(s: string)
    ensures NonBlank(Segments(s)) == [] <==> AllSpace(s)
    decreases |s|
  {
    if s == [] {
    } else if IsSpace(s[0]) {
      assert s == [s[0]] + s[1..];
      SegmentsConsSpace(s[0], s[1..]);
      BlankSegmentsIffAllSpace(s[1..]);
      AllSpaceAfterSpace(s);
    } else {
      FirstCharKept(s);
    }
  }

  /** Dropping a leading whitespace character keeps a text all whitespace or
      not. */
  lemma AllSpaceAfterSpace(s: string)
    requires s != [] && IsSpace(s[0])
    ensures AllSpace(s) <==> AllSpace(s[1..])
  {
    forall k | 0 <= k < |s| - 1
      ensures s[1..][k] == s[k + 1]
    {
    }
  }

  /** A text that starts with a visible character has a non-blank first line. */
  lemma FirstCharKept(s: string)
    requires s != [] && !IsSpace(s[0])
    ensures NonBlank(Segments(s)) != [] && !AllSpace(s)
  {
    if IsLineBreak(s[0]) {
      LineBreakIsSpace(s[0]);
    }
    var first := Segments(s)[0];
    assert first == [s[0]] + Segments(s[1..])[0];
    assert !AllSpace(first) by { assert first[0] == s[0]; }
  }

  /** The box is read line by line with no de-duplication: a URL pasted twice
      is downloaded twice. */
  lemma RepeatedLineKept(url: string)
    requires url != [] && IsStripped(url) && NoBreak(url)
    ensures UrlLines(url + "\n" + url) == [url, url]
  {
    assert url + "\n" + url == url + ['\n'] + url;
    SegmentsAcrossBreak(url, '\n', url);
    SegmentsOfLine(url);
    NonBlankOfLine(url);
    NonBlankAppend([url], [url]);
    assert [url] + [url] == [url, url];
  }

  lemma NonBlankOfLine(url: string)
    requires url != [] && IsStripped(url)
    ensures NonBlank([url]) == [url]
  {
    StripLeftOfStripped(url);
    assert [url][1..] == [];
  }
}

=== FILE: Text.dfy ===
/** The pieces of Python string handling the downloader relies on: `str.strip()`,
    `str.splitlines()` and the decimal rendering of integers inside f-strings. */
module Text {

  /** The characters for which Python's `str.isspace()` holds; `str.strip()` with
      no argument removes exactly these from both ends. */
  predicate IsSpace(c: char) {
    || c == ' '
    || ('\t' <= c <= '\r')
    || ('\U{1C}' <= c <= '\U{1F}')
    || c == '\U{85}' || c == '\U{A0}' || c == '\U{1680}'
    || ('\U{2000}' <= c <= '\U{200A}')
    || c == '\U{2028}' || c == '\U{2029}'
    || c == '\U{202F}' || c == '\U{205F}' || c == '\U{3000}'
  }

  /** The line boundaries recognised by Python's `str.splitlines()` (the pair
      "\r\n" is handled in SplitLines). */
  predicate IsLineBreak(c: char) {
    || c == '\n' || c == '\r' || c == '\U{0B}' || c == '\U{0C}'
    || c == '\U{1C}' || c == '\U{1D}' || c == '\U{1E}'
    || c == '\U{85}' || c == '\U{2028}' || c == '\U{2029}'
  }

  ghost predicate AllSpace(s: string) {
    forall k :: 0 <= k < |s| ==> IsSpace(s[k])
  }

  ghost predicate NoBreak(s: string) {
    forall k :: 0 <= k < |s| ==> !IsLineBreak(s[k])
  }

  /** `s` with no blank at either end. */
  ghost predicate IsStripped(s: string) {
    s == [] || (!IsSpace(s[0]) && !IsSpace(s[|s| - 1]))
  }

  /** `r` is what is left of `s` once some whitespace is cut off each end. */
  ghost predicate TrimmedFrom(r: string, s: string) {
    exists i, j :: 0 <= i <= j <= |s| && r == s[i..j] && AllSpace(s[..i]) && AllSpace(s[j..])
  }

  // ---------------------------------------------------------------------------
  // str.strip()
  // ---------------------------------------------------------------------------

  /** Python's `str.lstrip()`. */
  function StripLeft(s: string): (r: string)
    ensures |r| <= |s| && r == s[|s| - |r|..]
    ensures AllSpace(s[..|s| - |r|])
    ensures r == [] || !IsSpace(r[0])
    decreases |s|
  {
    if s != [] && IsSpace(s[0]) then
      var r := StripLeft(s[1..]);
      SlicesOfTail(s, |s| - |r|);
      AllSpaceCons(s[0], s[1..][..|s| - 1 - |r|]);
      r
    else
      s
  }

  lemma SlicesOfTail<T>(s: seq<T>, m: nat)
    requires 1 <= m <= |s|
    ensures s[..m] == [s[0]] + s[1..][..m - 1] && s[1..][m - 1..] == s[m..]
  {
  }

  lemma AllSpaceCons(c: char, t: string)
    requires IsSpace(c) && AllSpace(t)
    ensures AllSpace([c] + t)
  {
    forall k | 0 < k < |t| + 1 ensures ([c] + t)[k] == t[k - 1] {}
  }

  lemma AllSpaceSnoc(t: string, c: char)
    requires IsSpace(c) && AllSpace(t)
    ensures AllSpace(t + [c])
  {
    forall k | 0 <= k < |t| ensures (t + [c])[k] == t[k] {}
  }

  /** Python's `str.rstrip()`. */
  function StripRight(s: string): (r: string)
    ensures |r| <= |s| && r == s[..|r|]
    ensures AllSpace(s[|r|..])
    ensures r == [] || !IsSpace(r[|r| - 1])
    decreases |s|
  {
    if s != [] && IsSpace(s[|s| - 1]) then
      var r := StripRight(s[..|s| - 1]);
      SlicesOfInit(s, |r|);
      AllSpaceSnoc(s[..|s| - 1][|r|..], s[|s| - 1]);
      r
    else
      s
  }

  lemma SlicesOfInit<T>(s: seq<T>, m: nat)
    requires m < |s|
    ensures s[m..] == s[..|s| - 1][m..] + [s[|s| - 1]] && s[..|s| - 1][..m] == s[..m]
  {
  }

  /** Python's `str.strip()`: the text between the first and the last
      non-whitespace character, or "" when there is none. */
  function Strip(s: string): (r: string)
    ensures IsStripped(r)
    ensures r == [] <==> AllSpace(s)
  {
    var l := StripLeft(s);
    var r := StripRight(l);
    assert r == [] ==> s == s[..|s| - |l|] + l;
    assert r != [] ==> !IsSpace(s[|s| - |l|]);
    r
  }

  /** What Strip keeps is a slice of its input with only whitespace around it. */
  lemma StripTrims(s: string)
    ensures TrimmedFrom(Strip(s), s)
  {
    TrimmedFromParts(s, StripLeft(s), StripRight(StripLeft(s)));
  }

  /** Cutting whitespace off the front, then off the back, trims. */
  lemma TrimmedFromParts(s: string, l: string, r: string)
    requires |l| <= |s| && l == s[|s| - |l|..] && AllSpace(s[..|s| - |l|])
    requires |r| <= |l| && r == l[..|r|] && AllSpace(l[|r|..])
    ensures TrimmedFrom(r, s)
  {
    var i := |s| - |l|;
    SliceOfSuffix(s, i, |r|);
    TrimmedWitness(r, s, i, i + |r|);
  }

  lemma SliceOfSuffix<T>(s: seq<T>, i: nat, n: nat)
    requires i + n <= |s|
    ensures s[i..][..n] == s[i..i + n] && s[i..][n..] == s[i + n..]
  {
  }

  lemma TrimmedWitness(r: string, s: string, i: nat, j: nat)
    requires i <= j <= |s| && r == s[i..j] && AllSpace(s[..i]) && AllSpace(s[j..])
    ensures TrimmedFrom(r, s)
  {
  }

  /** Strip never brings in a line break. */
  lemma StripNoBreak(s: string)
    requires NoBreak(s)
    ensures NoBreak(Strip(s))
  {
    var l := StripLeft(s);
    NoBreakSlice(s, |s| - |l|, |s|);
    NoBreakSlice(l, 0, |StripRight(l)|);
  }

  lemma NoBreakSlice(s: string, i: nat, j: nat)
    requires NoBreak(s) && i <= j <= |s|
    ensures NoBreak(s[i..j])
  {
    forall k | 0 <= k < j - i
      ensures s[i..j][k] == s[i + k]
    {
    }
  }

  lemma StripLeftOfStripped(s: string)
    requires IsStripped(s)
    ensures StripLeft(s) == s && StripRight(s) == s
  {
  }

  /** Stripping is idempotent. */
  lemma StripIdempotent(s: string)
    ensures Strip(Strip(s)) == Strip(s)
  {
    StripLeftOfStripped(Strip(s));
  }

  /** A whitespace character in front of a string does not change its strip. */
  lemma StripConsSpace(c: char, t: string)
    requires IsSpace(c)
    ensures Strip([c] + t) == Strip(t)
  {
    assert ([c] + t)[1..] == t;
  }

  lemma StripLeftSnoc(t: string, c: char)
    requires IsSpace(c)
    ensures StripLeft(t + [c]) == if StripLeft(t) == [] then [] else StripLeft(t) + [c]
    decreases |t|
  {
    if t == [] {
    } else if IsSpace(t[0]) {
      assert (t + [c])[1..] == t[1..] + [c];
      StripLeftSnoc(t[1..], c);
    } else {
    }
  }

  /** A whitespace character after a string does not change its strip. */
  lemma StripSnocSpace(t: string, c: char)
    requires IsSpace(c)
    ensures Strip(t + [c]) == Strip(t)
  {
    StripLeftSnoc(t, c);
    var l := StripLeft(t);
    if l != [] {
      assert (l + [c])[..|l + [c]| - 1] == l;
    }
  }

  // ---------------------------------------------------------------------------
  // str.splitlines()
  // ---------------------------------------------------------------------------

  /** The lines of `s` as Python's `str.splitlines()` cuts them, boundaries
      dropped and "\r\n" counting as one boundary, but always with a last
      (possibly empty) piece after the final boundary. */
  function Lines(s: string): (lines: seq<string>)
    ensures |lines| >= 1
    decreases |s|
  {
    if s == [] then [""]
    else if s[0] == '\r' && |s| > 1 && s[1] == '\n' then [""] + Lines(s[2..])
    else
      var rest := Lines(s[1..]);
      if IsLineBreak(s[0]) then [""] + rest
      else [[s[0]] + rest[0]] + rest[1..]
  }

  /** Python's `str.splitlines()` (without `keepends`): Lines without the empty
      piece that follows a final boundary, so "" has no line at all. */
  function SplitLines(s: string): seq<string> {
    DropFinalEmpty(Lines(s))
  }

  /** `lines` without its last entry when that one is empty. */
  function DropFinalEmpty(lines: seq<string>): seq<string>
    requires |lines| >= 1
  {
    if lines[|lines| - 1] == "" then lines[..|lines| - 1] else lines
  }

  /** Reference definition: the maximal runs of `s` between two line-break
      characters, each break character being a separator of its own. */
  function Segments(s: string): (segs: seq<string>)
    ensures |segs| >= 1
    decreases |s|
  {
    if s == [] then [""]
    else
      var rest := Segments(s[1..]);
      if IsLineBreak(s[0]) then [""] + rest
      else [[s[0]] + rest[0]] + rest[1..]
  }

  /** The stripped non-blank lines of `lines`, in order, duplicates kept:
      `[u.strip() for u in lines if u.strip()]`. */
  function NonBlank(lines: seq<string>): (r: seq<string>)
    ensures |r| <= |lines|
  {
    if lines == [] then [] else Kept(lines[0]) + NonBlank(lines[1..])
  }

  /** What NonBlank keeps of one line: its strip, unless that is empty. */
  function Kept(line: string): (r: seq<string>)
    ensures |r| <= 1
    ensures r == [] <==> AllSpace(line)
    ensures r != [] ==> r == [Strip(line)]
  {
    var t := Strip(line);
    if t == [] then [] else [t]
  }

  lemma {:induction false} NonBlankAppend(a: seq<string>, b: seq<string>)
    ensures NonBlank(a + b) == NonBlank(a) + NonBlank(b)
    decreases |a|
  {
    if a == [] {
      assert a + b == b;
    } else {
      assert (a + b)[0] == a[0];
      assert (a + b)[1..] == a[1..] + b;
      NonBlankAppend(a[1..], b);
      assert NonBlank(a + b) == Kept(a[0]) + NonBlank(a[1..] + b);
    }
  }

  lemma NonBlankOfBlank()
    ensures NonBlank([""]) == []
  {
  }

  lemma NonBlankDropsBlank(lines: seq<string>)
    ensures NonBlank([""] + lines) == NonBlank(lines)
  {
    NonBlankAppend([""], lines);
    NonBlankOfBlank();
  }

  /** Two first lines with the same strip give the same non-blank lines. */
  lemma NonBlankSameHead(x: string, y: string, rest: seq<string>)
    requires Strip(x) == Strip(y)
    ensures NonBlank([x] + rest) == NonBlank([y] + rest)
  {
    NonBlankCons(x, rest);
    NonBlankCons(y, rest);
  }

  lemma NonBlankCons(x: string, rest: seq<string>)
    ensures NonBlank([x] + rest) == Kept(x) + NonBlank(rest)
  {
    assert ([x] + rest)[0] == x;
    assert ([x] + rest)[1..] == rest;
  }

  /** Every entry is a non-empty stripped string. */
  ghost predicate AllClean(lines: seq<string>) {
    forall k :: 0 <= k < |lines| ==> lines[k] != [] && IsStripped(lines[k])
  }

  /** No entry holds a line break. */
  ghost predicate AllNoBreak(lines: seq<string>) {
    forall k :: 0 <= k < |lines| ==> NoBreak(lines[k])
  }

  lemma AllCleanAppend(a: seq<string>, b: seq<string>)
    requires AllClean(a) && AllClean(b)
    ensures AllClean(a + b)
  {
    forall k | 0 <= k < |a + b| ensures (a + b)[k] != [] && IsStripped((a + b)[k]) {
      if k >= |a| {
        assert (a + b)[k] == b[k - |a|];
      }
    }
  }

  lemma AllNoBreakAppend(a: seq<string>, b: seq<string>)
    requires AllNoBreak(a) && AllNoBreak(b)
    ensures AllNoBreak(a + b)
  {
    forall k | 0 <= k < |a + b| ensures NoBreak((a + b)[k]) {
      if k >= |a| {
        assert (a + b)[k] == b[k - |a|];
      }
    }
  }

  lemma AllNoBreakTail(a: seq<string>)
    requires a != [] && AllNoBreak(a)
    ensures NoBreak(a[0]) && AllNoBreak(a[1..])
  {
    forall k | 0 <= k < |a| - 1 ensures NoBreak(a[1..][k]) {
      assert a[1..][k] == a[k + 1];
    }
  }

  /** Every line NonBlank keeps is non-empty and stripped. */
  lemma {:induction false} NonBlankClean(lines: seq<string>)
    ensures AllClean(NonBlank(lines))
  {
    if lines != [] {
      NonBlankClean(lines[1..]);
      var t := Strip(lines[0]);
      if t != [] {
        assert AllClean([t]);
        AllCleanAppend([t], NonBlank(lines[1..]));
      }
    }
  }

  /** NonBlank never brings in a line break. */
  lemma {:induction false} NonBlankNoBreak(lines: seq<string>)
    requires AllNoBreak(lines)
    ensures AllNoBreak(NonBlank(lines))
  {
    if lines != [] {
      AllNoBreakTail(lines);
      StripNoBreak(lines[0]);
      NonBlankNoBreak(lines[1..]);
      var t := Strip(lines[0]);
      if t != [] {
        assert AllNoBreak([t]);
        AllNoBreakAppend([t], NonBlank(lines[1..]));
      }
    }
  }

  /** No segment holds a line break. */
  lemma {:induction false} SegmentsNoBreak(s: string)
    ensures AllNoBreak(Segments(s))
    decreases |s|
  {
    if s != [] {
      SegmentsNoBreak(s[1..]);
      assert [s[0]] + s[1..] == s;
      var rest := Segments(s[1..]);
      AllNoBreakTail(rest);
      if IsLineBreak(s[0]) {
        SegmentsConsBreak(s[0], s[1..]);
        assert AllNoBreak([""]);
        AllNoBreakAppend([""], rest);
      } else {
        SegmentsConsOther(s[0], s[1..]);
        var first := [s[0]] + rest[0];
        assert NoBreak(first) by {
          forall k | 0 <= k < |first| ensures !IsLineBreak(first[k]) {
            if k > 0 {
              assert first[k] == rest[0][k - 1];
            }
          }
        }
        assert AllNoBreak([first]);
        AllNoBreakAppend([first], rest[1..]);
      }
    }
  }

  /** Two lists with the same first line and the same non-blank lines after
      it have the same non-blank lines. */
  lemma NonBlankHeadTail(a: seq<string>, b: seq<string>)
    requires |a| >= 1 && |b| >= 1 && a[0] == b[0]
    requires NonBlank(a[1..]) == NonBlank(b[1..])
    ensures NonBlank(a) == NonBlank(b)
  {
  }

  /** An empty last line adds nothing to the non-blank lines. */
  lemma NonBlankDropLastBlank(a: seq<string>)
    requires |a| >= 1 && a[|a| - 1] == ""
    ensures NonBlank(a[..|a| - 1]) == NonBlank(a)
  {
    SplitLast(a);
    NonBlankSnocBlank(a[..|a| - 1]);
  }

  lemma NonBlankSnocBlank(p: seq<string>)
    ensures NonBlank(p + [""]) == NonBlank(p)
  {
    NonBlankAppend(p, [""]);
    NonBlankOfBlank();
    assert NonBlank(p) + [] == NonBlank(p);
  }

  lemma LinesCrLf(s: string)
    requires |s| > 1 && s[0] == '\r' && s[1] == '\n'
    ensures Lines(s) == [""] + Lines(s[2..])
  {
  }

  lemma SegmentsCrLf(s: string)
    requires |s| > 1 && s[0] == '\r' && s[1] == '\n'
    ensures Segments(s)[1..] == [""] + Segments(s[2..])
  {
    assert s[1..][1..] == s[2..];
    assert Segments(s[1..]) == [""] + Segments(s[2..]);
  }

  /** Lines and Segments agree on the first piece, and on the non-blank
      pieces after it: they only differ by the empty piece Segments leaves
      between the two characters of "\r\n". */
  lemma {:induction false} LinesAgreeWithSegments(s: string)
    ensures Lines(s)[0] == Segments(s)[0]
    ensures NonBlank(Lines(s)[1..]) == NonBlank(Segments(s)[1..])
    decreases |s|
  {
    if s == [] {
    } else if s[0] == '\r' && |s| > 1 && s[1] == '\n' {
      LinesAgreeWithSegments(s[2..]);
      LinesCrLf(s);
      SegmentsCrLf(s);
      NonBlankDropsBlank(Segments(s[2..]));
      NonBlankHeadTail(Lines(s[2..]), Segments(s[2..]));
    } else {
      LinesAgreeWithSegments(s[1..]);
      if IsLineBreak(s[0]) {
        NonBlankHeadTail(Lines(s[1..]), Segments(s[1..]));
      }
    }
  }

  /** Splitting with "\r\n" as one boundary or as two, and keeping or not the
      piece after a final boundary, only differ in empty lines, which
      NonBlank drops. */
  lemma SplitLinesAgreesWithSegments(s: string)
    ensures NonBlank(SplitLines(s)) == NonBlank(Segments(s))
  {
    SplitLinesDropsBlank(s);
    LinesAgreeWithSegments(s);
    NonBlankHeadTail(Lines(s), Segments(s));
  }

  /** Leaving out the piece after a final boundary drops only an empty line. */
  lemma SplitLinesDropsBlank(s: string)
    ensures NonBlank(SplitLines(s)) == NonBlank(Lines(s))
  {
    DropFinalBlank(Lines(s));
  }

  lemma DropFinalBlank(lines: seq<string>)
    requires |lines| >= 1
    ensures NonBlank(DropFinalEmpty(lines)) == NonBlank(lines)
  {
    if lines[|lines| - 1] == "" {
      NonBlankDropLastBlank(lines);
    }
  }

  /** Whitespace in front of the text never changes its non-blank segments. */
  lemma SegmentsConsSpace(c: char, t: string)
    requires IsSpace(c)
    ensures NonBlank(Segments([c] + t)) == NonBlank(Segments(t))
  {
    if IsLineBreak(c) {
      SegmentsConsBreak(c, t);
      NonBlankDropsBlank(Segments(t));
    } else {
      SegmentsConsSpaceSameLine(c, t);
    }
  }

  lemma SegmentsConsSpaceSameLine(c: char, t: string)
    requires IsSpace(c) && !IsLineBreak(c)
    ensures NonBlank(Segments([c] + t)) == NonBlank(Segments(t))
  {
    var b := Segments(t);
    SegmentsConsOther(c, t);
    StripConsSpace(c, b[0]);
    NonBlankSameHead([c] + b[0], b[0], b[1..]);
    SplitFirst(b);
  }

  lemma SplitFirst<T>(b: seq<T>)
    requires |b| >= 1
    ensures b == [b[0]] + b[1..]
  {
  }

  /** A line break in front of a text opens an empty first segment. */
  lemma SegmentsConsBreak(c: char, t: string)
    requires IsLineBreak(c)
    ensures Segments([c] + t) == [""] + Segments(t)
  {
    assert ([c] + t)[1..] == t;
  }

  /** Any other character in front of a text joins its first segment. */
  lemma SegmentsConsOther(c: char, t: string)
    requires !IsLineBreak(c)
    ensures var b := Segments(t); Segments([c] + t) == [[c] + b[0]] + b[1..]
  {
    assert ([c] + t)[1..] == t;
  }

  /** A line break after the text opens a new, empty segment. */
  lemma {:induction false} SegmentsSnocBreak(t: string, c: char)
    requires IsLineBreak(c)
    ensures Segments(t + [c]) == Segments(t) + [""]
    decreases |t|
  {
    if t == [] {
      assert [c][1..] == [];
    } else {
      SegmentsSnocBreak(t[1..], c);
      SegmentsSnocStep(t, c);
      if !IsLineBreak(t[0]) {
        var b := Segments(t[1..]);
        assert (b + [""])[0] == b[0];
        assert (b + [""])[1..] == b[1..] + [""];
      }
    }
  }

  /** Any other character after the text extends its last segment. */
  lemma {:induction false} SegmentsSnocOther(t: string, c: char)
    requires !IsLineBreak(c)
    ensures var b := Segments(t); Segments(t + [c]) == ExtendLast(b, c)
    decreases |t|
  {
    if t == [] {
      assert [c][1..] == [];
      assert [c] + "" == "" + [c];
    } else {
      SegmentsSnocOther(t[1..], c);
      SegmentsSnocStep(t, c);
      if IsLineBreak(t[0]) {
        var b := Segments(t[1..]);
        assert ([""] + b)[..|b|] == [""] + b[..|b| - 1];
      } else {
        SegmentsSnocOtherInLine(t, c);
      }
    }
  }

  /** One unfolding of Segments on a text with a character appended. */
  lemma SegmentsSnocStep(t: string, c: char)
    requires t != []
    ensures var r := Segments(t[1..] + [c]);
      Segments(t + [c]) == if IsLineBreak(t[0]) then [""] + r else [[t[0]] + r[0]] + r[1..]
  {
    var s := t + [c];
    assert s[1..] == t[1..] + [c];
    assert s[0] == t[0];
  }

  lemma SegmentsSnocOtherInLine(t: string, c: char)
    requires t != [] && !IsLineBreak(t[0]) && !IsLineBreak(c)
    requires var b := Segments(t[1..]); Segments(t[1..] + [c]) == ExtendLast(b, c)
    requires var r := Segments(t[1..] + [c]); Segments(t + [c]) == [[t[0]] + r[0]] + r[1..]
    ensures var b := Segments(t); Segments(t + [c]) == ExtendLast(b, c)
  {
    var b := Segments(t[1..]);
    assert Segments(t) == [[t[0]] + b[0]] + b[1..];
    ExtendLastUnderHead(t[0], b, Segments(t[1..] + [c]), c);
  }

  /** Extending the last piece commutes with putting a character in front of
      the first piece. */
  lemma ExtendLastUnderHead(x: char, b: seq<string>, r: seq<string>, c: char)
    requires |b| >= 1 && r == ExtendLast(b, c)
    ensures var h := [[x] + b[0]] + b[1..]; [[x] + r[0]] + r[1..] == ExtendLast(h, c)
  {
    if |b| == 1 {
      assert [x] + (b[0] + [c]) == ([x] + b[0]) + [c];
    } else {
      assert r[0] == b[0];
      assert r[1..] == b[1..|b| - 1] + [b[|b| - 1] + [c]];
    }
  }

  /** `b` with `c` appended to its last entry. */
  function ExtendLast(b: seq<string>, c: char): (r: seq<string>)
    requires |b| >= 1
    ensures |r| == |b|
  {
    b[..|b| - 1] + [b[|b| - 1] + [c]]
  }

  /** Whitespace after the text never changes its non-blank segments. */
  lemma SegmentsSnocSpace(t: string, c: char)
    requires IsSpace(c)
    ensures NonBlank(Segments(t + [c])) == NonBlank(Segments(t))
  {
    if IsLineBreak(c) {
      SegmentsSnocBlankLine(t, c);
    } else {
      SegmentsSnocSpaceSameLine(t, c);
    }
  }

  lemma SegmentsSnocBlankLine(t: string, c: char)
    requires IsLineBreak(c)
    ensures NonBlank(Segments(t + [c])) == NonBlank(Segments(t))
  {
    SegmentsSnocBreak(t, c);
    NonBlankSnocBlank(Segments(t));
  }

  lemma SegmentsSnocSpaceSameLine(t: string, c: char)
    requires IsSpace(c) && !IsLineBreak(c)
    ensures NonBlank(Segments(t + [c])) == NonBlank(Segments(t))
  {
    var b := Segments(t);
    SegmentsSnocOther(t, c);
    assert Segments(t + [c]) == ExtendLast(b, c);
    SegmentsSnocSpaceInLine(b, c);
  }

  lemma SegmentsSnocSpaceInLine(b: seq<string>, c: char)
    requires |b| >= 1 && IsSpace(c)
    ensures NonBlank(ExtendLast(b, c)) == NonBlank(b)
  {
    var n := |b| - 1;
    SplitLast(b);
    StripSnocSpace(b[n], c);
    NonBlankSnocSameStrip(b[..n], b[n] + [c], b[n]);
  }

  lemma SplitLast<T>(b: seq<T>)
    requires |b| >= 1
    ensures b == b[..|b| - 1] + [b[|b| - 1]]
  {
  }

  /** Two last lines with the same strip give the same non-blank lines. */
  lemma NonBlankSnocSameStrip(p: seq<string>, x: string, y: string)
    requires Strip(x) == Strip(y)
    ensures NonBlank(p + [x]) == NonBlank(p + [y])
  {
    NonBlankAppend(p, [x]);
    NonBlankAppend(p, [y]);
    NonBlankSameHead(x, y, []);
    assert [x] + [] == [x];
    assert [y] + [] == [y];
  }

  /** Every line boundary is whitespace. */
  lemma LineBreakIsSpace(c: char)
    requires IsLineBreak(c)
    ensures IsSpace(c)
  {
  }

  /** A text without a line break is one segment. */
  lemma {:induction false} SegmentsOfLine(a: string)
    requires NoBreak(a)
    ensures Segments(a) == [a]
    decreases |a|
  {
    if a != [] {
      assert NoBreak(a[1..]) by {
        forall k | 0 <= k < |a[1..]| ensures !IsLineBreak(a[1..][k]) {
          assert a[1..][k] == a[k + 1];
        }
      }
      SegmentsOfLine(a[1..]);
      assert [a[0]] + a[1..] == a;
    }
  }

  /** A line followed by a break: the line is the first segment, and the
      segments of what follows come after it. */
  lemma {:induction false} SegmentsAcrossBreak(a: string, c: char, rest: string)
    requires NoBreak(a) && IsLineBreak(c)
    ensures Segments(a + [c] + rest) == [a] + Segments(rest)
    decreases |a|
  {
    var s := a + [c] + rest;
    if a == [] {
      assert s == [c] + rest && s[1..] == rest;
    } else {
      assert s[1..] == a[1..] + [c] + rest;
      assert s[0] == a[0];
      assert NoBreak(a[1..]) by {
        forall k | 0 <= k < |a[1..]| ensures !IsLineBreak(a[1..][k]) {
          assert a[1..][k] == a[k + 1];
        }
      }
      SegmentsAcrossBreak(a[1..], c, rest);
      assert [a[0]] + a[1..] == a;
    }
  }

  lemma {:induction false} SegmentsStripLeft(s: string)
    ensures NonBlank(Segments(StripLeft(s))) == NonBlank(Segments(s))
    decreases |s|
  {
    if s != [] && IsSpace(s[0]) {
      assert s == [s[0]] + s[1..];
      SegmentsConsSpace(s[0], s[1..]);
      SegmentsStripLeft(s[1..]);
    }
  }

  lemma {:induction false} SegmentsStripRight(s: string)
    ensures NonBlank(Segments(StripRight(s))) == NonBlank(Segments(s))
    decreases |s|
  {
    if s != [] && IsSpace(s[|s| - 1]) {
      assert s == s[..|s| - 1] + [s[|s| - 1]];
      SegmentsSnocSpace(s[..|s| - 1], s[|s| - 1]);
      SegmentsStripRight(s[..|s| - 1]);
    }
  }

  /** Stripping the whole text before splitting it never changes the stripped
      non-blank lines. */
  lemma SegmentsStrip(s: string)
    ensures NonBlank(Segments(Strip(s))) == NonBlank(Segments(s))
  {
    SegmentsStripLeft(s);
    SegmentsStripRight(StripLeft(s));
  }

  // ---------------------------------------------------------------------------
  // Decimal rendering of integers, as `str(n)` / `f"{n}"`
  // ---------------------------------------------------------------------------

  predicate IsDigit(c: char) {
    '0' <= c <= '9'
  }

  ghost predicate AllDigits(s: string) {
    forall k :: 0 <= k < |s| ==> IsDigit(s[k])
  }

  function DigitChar(d: nat): (c: char)
    requires d < 10
    ensures IsDigit(c) && c as int - '0' as int == d
  {
    ('0' as int + d) as char
  }

  function DigitValue(c: char): (d: nat)
    requires IsDigit(c)
    ensures d < 10 && DigitChar(d) == c
  {
    (c as int - '0' as int) as nat
  }

  /** Python's `str(n)` for a non-negative integer: decimal digits, no leading zero. */
  function NatToString(n: nat): (s: string)
    ensures |s| >= 1 && AllDigits(s)
    ensures s[0] == '0' ==> n == 0
    ensures forall k :: 0 <= k < |s| ==> s[k] != '-'
  {
    if n < 10 then [DigitChar(n)]
    else NatToString(n / 10) + [DigitChar(n % 10)]
  }

  /** Reads a run of decimal digits back as a number. */
  function ParseNat(s: string): nat
    requires AllDigits(s)
  {
    if s == [] then 0
    else ParseNat(s[..|s| - 1]) * 10 + DigitValue(s[|s| - 1])
  }

  lemma {:induction false} ParseNatToString(n: nat)
    ensures ParseNat(NatToString(n)) == n
  {
    var s := NatToString(n);
    if n >= 10 {
      var q, d := n / 10, n % 10;
      assert s == NatToString(q) + [DigitChar(d)];
      assert s[..|s| - 1] == NatToString(q);
      ParseNatToString(q);
      assert q * 10 + d == n;
    }
  }

  /** Python's `str(i)` for any integer. */
  function IntToString(i: int): (s: string)
    ensures |s| >= 1
    ensures s[0] == '-' <==> i < 0
  {
    if i < 0 then "-" + NatToString(-i) else NatToString(i)
  }

  /** Reads back a decimal integer with an optional leading minus sign. */
  function ParseInt(s: string): int
    requires s != [] && AllDigits(if s[0] == '-' then s[1..] else s)
  {
    if s[0] == '-' then 0 - ParseNat(s[1..]) else ParseNat(s)
  }

  /** The decimal rendering is read back as the same integer. */
  lemma IntToStringRoundTrip(i: int)
    ensures var s := IntToString(i); AllDigits(if s[0] == '-' then s[1..] else s)
    ensures ParseInt(IntToString(i)) == i
  {
    if i < 0 {
      NegativeRoundTrip(i);
    } else {
      ParseNatToString(i);
    }
  }

  lemma NegativeRoundTrip(i: int)
    requires i < 0
    ensures var s := IntToString(i); s[1..] == NatToString(-i) && ParseInt(s) == i
  {
    var n := NatToString(-i);
    var s := IntToString(i);
    assert s == "-" + n;
    assert s[1..] == n;
    ParseNatToString(-i);
  }
}

=== FILE: Wrappers.dfy ===
/** Optional values, used where the program reads a dictionary key that may be
    missing or a Tk variable whose read may fail. */
module Wrappers {

  datatype Option<+T> = None | Some(value: T) {

    /** The value if present, otherwise the given default (Python's `d.get(k, default)`). */
    function GetOr(default: T): T {
      match this
      case Some(v) => v
      case None => default
    }
  }
}
